=== FILE: README.md ===
# URL shortener core, modelled in Dafny

A Dafny model of the sequential logic of a small URL-shortening service
(Express, Sequelize over Postgres, Redis). It covers:

- link creation with its fixed validation order;
- the soft-delete link table;
- the redirect, which records a visit event;
- the analytics queries over visit events (totals, distinct visitors, a
  seven-day series, per-OS and per-device breakdowns, per-topic and per-owner
  rollups);
- the per-alias report cache;
- the user-agent and address classifiers;
- the cache client's reconnect backoff;
- the authorisation gate and the get-or-create login;
- the rule turning errors into HTTP status codes.

Tables are sequences of immutable records: the record at index `i` has id
`i + 1`, and a deleted record keeps its place with `deleted` set. Queries are
pure functions of the tables and return no table, so they leave both stores
unchanged. Operations that write return the new table inside a `Result`. The
following are parameters:

- URL parsing (`parses`), the generated code, the base URL of short links;
- the clock (`now`), the random jitter, the moment the analytics module
  loads and its time-zone offset;
- the identity provider's verdict, the geographic lookup (`geo`), the
  report's JSON encoding (`encode` / `decode`);
- the store's failures (`fault`).

Modules follow the source files:

| module | file |
|---|---|
| `Errors` | error constants, `err.statusCode \|\| 500`, `Reply` |
| `Text` | substring search and ASCII lower-casing, the meaning of `/x/i.test` |
| `Counting` | generic counting identities behind `COUNT`, `COUNT(DISTINCT)`, `GROUP BY` |
| `UrlRepo`, `UrlService`, `UrlRoutes` | the link table, `createUrl`, the two link routes |
| `RateLimit` | the fixed-window limiter in front of `POST /shorten` |
| `AnalyticsRepo`, `AnalyticsService`, `AnalyticsRoutes` | events, the queries, the reports, the cached route |
| `DeviceDetection` | `detectDeviceType`, `detectOsName`, `getIpAddress` |
| `Reconnect` | `reconnectStrategy` |
| `Authorize`, `UserStore`, `AuthService` | the gate, the users table, `login` |
| `Scenarios` | properties spanning creation, redirect and analytics |

## Model

| member | source | states |
|---|---|---|
| Errors.StatusOf | app/modules/routes/routes.register.ts:17-21 | a carried non-zero status code is answered as is; every other error, and a zero code, is answered 500; the answer is never 0 |
| Errors.InternalServerIff | app/modules/routes/routes.register.ts:17-21 | the answer is 500 exactly when the error carries no status code, a zero one or 500 itself; any other answer is the error's own code |
| Errors.StatusCodesOfConstants | app/modules/url/url.constants.ts:3-11 | the link errors answer 400 or 404, INTERNAL_SERVER_ERROR 500, the gate's UNAUTHORIZED 403, store and runtime errors 500 |
| Errors.Forward | app/modules/routes/routes.register.ts:17-21 | `next(error)` yields an error reply carrying that error and its status code |
| Text.ContainsIff | app/utility/deviceDetection.ts:5 | the pattern search succeeds exactly when the pattern occurs at some position of the string |
| Text.LowerCaseBlind | app/utility/deviceDetection.ts:5-6 | strings differing only in ASCII letter case lower-case to the same string |
| Counting.SumOccurrencesIsCountIn | app/modules/analytics/analytics.repo.ts:46-53 | summing per-value counts over distinct values counts the positions holding any of them, which is why a GROUP BY partitions a count |
| Counting.Dedup | app/modules/analytics/analytics.repo.ts:52 | the group values are distinct, are exactly the values present, and are no more numerous than the rows |
| DeviceDetection.DetectDeviceType | app/utility/deviceDetection.ts:4-8 | 'Mobile' iff the agent contains "mobile" in any case; 'Tablet' iff it contains "tablet" and not "mobile"; otherwise 'Desktop'; nothing else |
| DeviceDetection.DetectOsName | app/utility/deviceDetection.ts:10-17 | each OS name iff its pattern matches in any case and no earlier one does, in the order windows, mac, linux, android, ios; 'Unknown' iff none matches |
| DeviceDetection.ClassifiersIgnoreCase | app/utility/deviceDetection.ts:5-15 | both classifiers give the same answer for agents that differ only in ASCII case |
| DeviceDetection.MobileWinsOverTablet | app/utility/deviceDetection.ts:5-6 | an agent mentioning both mobile and tablet is 'Mobile' |
| DeviceDetection.OsPatternOrder | app/utility/deviceDetection.ts:12-15 | linux with android (without windows or mac) is 'Linux'; mac with ios is 'MacOS' |
| DeviceDetection.NormalizeLoopback | app/utility/deviceDetection.ts:24 | "::1" becomes "127.0.0.1", every other address passes unchanged, and the result is never "::1" |
| DeviceDetection.GetIpAddress | app/utility/deviceDetection.ts:19-25 | a list header gives its first entry, a non-empty string header is taken whole, otherwise the peer address, else "0.0.0.0"; never "::1" |
| DeviceDetection.ForwardedChainNotSplit | app/utility/deviceDetection.ts:21-23 | any forwarding header holding a comma-separated chain is stored whole, comma included, not split to its first hop |
| Reconnect.ReconnectStrategy | app/utility/redis.ts:9-22 | gives up with 'Max retries reached' iff more than 10 retries; refused connections wait min(retries·1000, 3000) ms, within [0, 3000]; otherwise min(2^retries·50, 2000) ms plus jitter, within [50, 2199] |
| Reconnect.Pow2Monotone | app/utility/redis.ts:20 | powers of two never decrease with the exponent |
| Reconnect.RefusedDelayShape | app/utility/redis.ts:16 | the refused-connection delay never decreases and is 3000 ms from the third retry on |
| Reconnect.BackoffBaseShape | app/utility/redis.ts:20 | the default delay before jitter never decreases, is below 2000 ms before the sixth retry and exactly 2000 ms from it on |
| Authorize.ExcludedPaths | app/modules/routes/routes.data.ts:33-45 | five exempt entries (login, health check, API docs, OAuth callback, favicon), all GET |
| Authorize.FindExcluded | app/utility/authorize.ts:13-17 | an entry is found iff some entry's path is a substring of the URL and its method a substring of the request method |
| Authorize.Authorize | app/utility/authorize.ts:10-31 | an exempt request passes with no error and no verification; otherwise the token is verified once, success stores the payload as the user, failure forwards 403 UNAUTHORIZED |
| Authorize.NonGetNeverExempt | app/modules/routes/routes.data.ts:33-45 | no POST, PUT, PATCH or DELETE request is ever exempt |
| Authorize.HealthCheckAnywhereIsExempt | app/utility/authorize.ts:15 | any GET whose URL contains '/healthCheck' anywhere skips verification |
| UserStore.FindByEmail | app/modules/auth/auth.service.ts:9 | returns a stored user with that email, or nothing exactly when no user has it |
| UserStore.FindBySub | app/modules/url/url.service.ts:27 | returns a stored user with that subject id, or nothing exactly when no user has it |
| UserStore.CreateUser | app/modules/user/user.schema.ts:9-18 | a missing `sub` is refused by its not-null constraint; a taken email or sub by the unique constraints; otherwise exactly one user with the next id is appended, keeping the table valid |
| AuthService.LoginAsWritten | app/modules/auth/auth.service.ts:5-17 | verification errors propagate; a known email is reused without writing and its id returned with the token; an unknown email fails with the not-null violation on `sub` |
| AuthService.FirstLoginAsWrittenFails | app/modules/auth/auth.service.ts:10-12 | a first login always fails with the not-null violation on `sub` |
| AuthService.Login | app/modules/auth/auth.service.ts:5-17 | verification errors propagate; a known email is reused with no creation; otherwise exactly one user is created; the token is echoed unchanged; after success the email is known |
| AuthService.RepeatedLoginCreatesAtMostOneUser | app/modules/auth/auth.service.ts:8-12 | a second login with the same verified email succeeds, writes nothing and yields the same id |
| UrlRepo.Create | app/modules/url/url.repo.ts:4 | a taken short URL (live or deleted) is refused with a unique violation; otherwise exactly one live row with the given fields, the next id and the clock reading is appended |
| UrlRepo.GetOne | app/modules/url/url.repo.ts:8-9 | returns a live row matching every supplied filter field, or nothing exactly when no live row matches |
| UrlRepo.GetAll | app/modules/url/url.repo.ts:6 | holds exactly the live rows |
| UrlRepo.Patch | app/modules/url/url.repo.ts:11-12 | supplied fields are replaced, all others kept |
| UrlRepo.UpdateOne | app/modules/url/url.repo.ts:11-12 | only the live row with that id changes, and only in the supplied fields; 1 row affected iff it exists; a short URL held by another row is refused |
| UrlRepo.DeleteOne | app/modules/url/url.repo.ts:14 | the live row with that id is marked deleted and stays stored; every other row is unchanged; 1 row affected iff it was live |
| UrlRepo.DeletedRowInvisible | app/modules/url/url.repo.ts:14 | after a delete neither `getOne` nor `getAll` returns the row |
| UrlService.ShortCode | app/modules/url/url.service.ts:41 | the code is the custom alias when non-empty, otherwise the 8-character generated code |
| UrlService.CatchCreate | app/modules/url/url.service.ts:54-59 | a TypeError becomes INVALID_URL_FORMAT and every other error is re-thrown unchanged |
| UrlService.CreateUrl | app/modules/url/url.service.ts:13-60 | checks in order: missing long URL, unparsable URL, unknown user, live duplicate for the same owner; a short URL already taken answers the unique violation on `shortUrl`; success appends exactly one row (alias, topic, owner id, base URL + code, no sub) and returns that short URL with the row's creation time; keeps at most one live link per (owner, long URL) |
| UrlService.GetOneUrl | app/modules/url/url.service.ts:71-78 | a live row matching the filter, or nothing exactly when none matches |
| UrlService.CreateUrlSucceeds | app/modules/url/url.service.ts:20-53 | a present, parsable URL of a known user, not yet linked by that user, under a fresh short URL is created |
| UrlService.SecondCreateRefused | app/modules/url/url.service.ts:32-39 | after a creation, a second one for the same owner and long URL answers ALREADY_EXIST whatever its alias |
| RateLimit.Hit | app/modules/url/url.routes.ts:17-22 | a client's first request, or one after its window ran out, opens a 15-minute window; requests in a window are counted and pass only up to the third; other clients' windows are untouched |
| RateLimit.AtMostLimitPerWindow | app/modules/url/url.routes.ts:17-22 | within one window, however many requests a client sends, at most three pass in total |
| RateLimit.FourthRequestRefused | app/modules/url/url.routes.ts:17-22 | from a fresh start, three requests within 15 minutes pass and a fourth is refused |
| UrlRoutes.BuildRequest | app/modules/url/url.routes.ts:26-31 | the alias is kept only when non-empty; the topic is lower-cased and dropped when empty; a missing topic, then a missing user, throws a TypeError |
| UrlRoutes.TopicCaseFolded | app/modules/url/url.routes.ts:29 | topics differing only in ASCII case build the same request |
| UrlRoutes.EmptyAliasStoredAsNone | app/modules/url/url.routes.ts:28 | an empty alias in the body is passed on as no alias |
| UrlRoutes.Shorten | app/modules/url/url.routes.ts:24-37 | the limiter counts every request and a refused one gets 429 with its message and writes nothing; a body error answers 500; otherwise the reply and the table are those of `createUrl` |
| UrlRoutes.MissingTopicMasksMissingUrl | app/modules/url/url.routes.ts:29 | a body without topic answers 500 even when the long URL is missing too |
| UrlRoutes.ShortenThrottledAfterThree | app/modules/url/url.routes.ts:17-24 | once a window holds three requests, any further one in it is refused and writes nothing |
| UrlRoutes.AgentOf | app/modules/url/url.routes.ts:48 | the stored agent is the header, or 'Unknown' when missing or empty; never empty |
| UrlRoutes.VisitEvent | app/modules/url/url.routes.ts:46-59 | the event carries the link id, the agent string, the OS and device classified from that same string, the chosen address and its geographic lookup |
| UrlRoutes.RedirectAsWritten | app/modules/url/url.routes.ts:39-64 | an unknown alias answers 404; a known one throws calling the missing `CreateAnalytics`; nothing is recorded |
| UrlRoutes.RedirectAsWrittenNeverRedirects | app/modules/url/url.routes.ts:56 | no request is redirected and no event is recorded; a known alias answers 500 |
| UrlRoutes.Redirect | app/modules/url/url.routes.ts:39-64 | an unknown alias answers 404 and records nothing; a known one records exactly one event for the link, awaited, then redirects to its long URL; a failed recording is forwarded and nothing is redirected |
| UrlRoutes.RedirectRecordsTheVisit | app/modules/url/url.routes.ts:46-59 | the recorded event belongs to a live link carrying the alias and holds the visit's agent and OS |
| UrlRoutes.UnaliasedLinkUnreachable | app/modules/url/url.routes.ts:42 | a link stored without alias is never found by the redirect and never gets an event from it |
| AnalyticsRepo.Create | app/modules/analytics/analytics.repo.ts:8-9 | exactly one live event carrying the given fields, the next id and the clock reading is appended |
| AnalyticsRepo.GetAll | app/modules/analytics/analytics.repo.ts:11 | holds exactly the live events |
| AnalyticsRepo.GetOne | app/modules/analytics/analytics.repo.ts:13-14 | a live event the where-clause accepts, or nothing exactly when none does |
| AnalyticsRepo.DayOfIff | app/modules/analytics/analytics.repo.ts:33-34 | an instant lies in a day's closed interval from 00:00:00.000Z to 23:59:59.999Z exactly when it belongs to that day |
| AnalyticsRepo.LastSevenDays | app/modules/analytics/analytics.repo.ts:16-18 | seven days: the load day first, each next one the day before, all distinct |
| AnalyticsRepo.ScopeSize | app/modules/analytics/analytics.repo.ts:20-21 | the live events of a set of links are as many as the live link ids in that set |
| AnalyticsRepo.TotalClicks | app/modules/analytics/analytics.repo.ts:20-21 | the number of live events whose link id is the given one |
| AnalyticsRepo.UniqueUsers | app/modules/analytics/analytics.repo.ts:23-24 | the size of the set of addresses of the link's live events: at most its clicks, and at least one when it has any |
| AnalyticsRepo.IpsAreAddresses | app/modules/analytics/analytics.repo.ts:23-24 | the distinct values of the address column are exactly the events' addresses |
| AnalyticsRepo.DailySeries | app/modules/analytics/analytics.repo.ts:26-41 | one entry per day in the given order, each counting the events within that day's interval, zero days kept |
| AnalyticsRepo.WindowIsDay | app/modules/analytics/analytics.repo.ts:29-37 | counting a day's interval is counting the events of that day |
| AnalyticsRepo.DailySeriesBound | app/modules/analytics/analytics.repo.ts:26-41 | over distinct days the series never adds up to more than the events |
| AnalyticsRepo.ClickByDate | app/modules/analytics/analytics.repo.ts:26-41 | one entry per day, in order, each counting the link's live events within that day's interval; over distinct days the series sums to at most the link's total clicks |
| AnalyticsRepo.Groups | app/modules/analytics/analytics.repo.ts:43-69 | one entry per distinct value; every event falls in one; each entry's clicks are the events with its value and its users the size of the set of their addresses, never more than the clicks; the click counts sum to the events |
| AnalyticsRepo.GroupsShape | app/modules/analytics/analytics.repo.ts:43-69 | the entries built from the distinct values have distinct names, cover every event, and each is a value of the scope with a non-empty group |
| AnalyticsRepo.OsTypeAnalytics | app/modules/analytics/analytics.repo.ts:43-69 | one entry per OS name among the link's live events, names distinct; each entry's clicks are the events with that OS and its users the size of the set of their addresses; the clicks sum to the link's total |
| AnalyticsRepo.DeviceTypeAnalytics | app/modules/analytics/analytics.repo.ts:71-99 | the same for device types |
| AnalyticsRepo.TopicUrls | app/modules/analytics/analytics.repo.ts:102 | exactly the live links with that topic |
| AnalyticsRepo.TopicUrlsAscending | app/modules/analytics/analytics.repo.ts:102 | the model lists the topic's links in ascending id order, so each link is listed once |
| AnalyticsRepo.TopicIdsAreTopicLinks | app/modules/analytics/analytics.repo.ts:102-103 | an id is listed exactly when a live link of the topic has it |
| AnalyticsRepo.TotalClicksByTopic | app/modules/analytics/analytics.repo.ts:101-106 | counts the live events whose link id is one of the topic's live links |
| AnalyticsRepo.UniqueUsersByTopic | app/modules/analytics/analytics.repo.ts:108-117 | the size of the set of addresses of the live events on the topic's live links, at most the topic's total |
| AnalyticsRepo.ClicksByDateForTopic | app/modules/analytics/analytics.repo.ts:119-139 | one entry per day, in order, each counting the topic's live events within that day's interval; over distinct days sums to at most the topic's total |
| AnalyticsRepo.UrlsByTopic | app/modules/analytics/analytics.repo.ts:141-169 | one row per live link of the topic, holding that link's short URL, total clicks and distinct addresses |
| AnalyticsRepo.UrlsByTopicAddsUp | app/modules/analytics/analytics.repo.ts:141-169 | the per-link click totals of a topic sum to the topic's total |
| AnalyticsRepo.OwnedUrls | app/modules/analytics/analytics.repo.ts:172 | exactly the user's live links |
| AnalyticsRepo.PairGroups | app/modules/analytics/analytics.repo.ts:199-217 | one entry per distinct (value, link) pair, counting the events of that pair; address count equals click count; the click counts sum to the events |
| AnalyticsRepo.OverallEntriesPerLink | app/modules/analytics/analytics.repo.ts:199-217 | the entries named by a value are as many as the distinct links having an event with that value, so one OS used on two links is listed twice |
| Counting.FirstsCount | app/modules/analytics/analytics.repo.ts:206 | among distinct pairs, the pairs with a given first part are as many as its distinct partners |
| AnalyticsRepo.OverallAnalyticsOfUser | app/modules/analytics/analytics.repo.ts:171-235 | the user's live link count; clicks over the user's live links; the size of the set of their events' addresses; a per-day count of those events for each day in order; both breakdowns are the (value, link) groupings of those events, summing to the clicks with equal address and click counts |
| AnalyticsService.CreateAnalytics | app/modules/analytics/analytics.service.ts:8-15 | appends exactly one event carrying the given fields and returns it, or re-throws the store's failure unchanged |
| AnalyticsService.ReportFor | app/modules/analytics/analytics.service.ts:42-53 | the total clicks, distinct addresses, daily series, OS and device breakdowns, each the corresponding query on the same link id, mutually consistent |
| AnalyticsService.UnknownAliasAnswers500 | app/modules/analytics/analytics.service.ts:38-56 | an unknown alias answers 500, because the NOT_FOUND thrown at line 38 is replaced by the catch |
| AnalyticsService.GetAnalyticsData | app/modules/analytics/analytics.service.ts:35-57 | an error occurs exactly when no live link has the alias, and it is INTERNAL_SERVER_ERROR (500); otherwise the report of a live link carrying the alias |
| AnalyticsService.TopicAnalytics | app/modules/analytics/analytics.service.ts:59-74 | the topic's total clicks, distinct addresses, daily series and per-link rows, each the corresponding query, the rows adding up to the total |
| AnalyticsService.OverallAnalytics | app/modules/analytics/analytics.service.ts:76-86 | an unknown subject id answers INTERNAL_SERVER_ERROR; otherwise the rollup of the live links of the user with that subject id |
| AnalyticsService.OverallIgnoresOtherUsersLinks | app/modules/analytics/analytics.repo.ts:174-176 | a visit to another user's link leaves a user's total clicks unchanged |
| AnalyticsRoutes.CacheGet | app/modules/analytics/analytics.routes.ts:245 | a value is returned exactly while its key is stored and unexpired |
| AnalyticsRoutes.AliasAnalytics | app/modules/analytics/analytics.routes.ts:239-260 | a non-empty unexpired value under "analytics:" + alias is decoded and returned without computing; otherwise the report is computed, stored encoded under the same key for an hour and returned; a failure, an unknown alias included, is forwarded as 500 and nothing is stored |
| AnalyticsRoutes.RepeatWithinHourServedFromCache | app/modules/analytics/analytics.routes.ts:245-255 | on a cache miss, a successful report is computed and sent; if its encoding is non-empty and decodes back to it, a repeat within the hour returns it without computing, even after new visits, and leaves the cache unchanged |
| AnalyticsRoutes.FailureIsNotCached | app/modules/analytics/analytics.routes.ts:251-258 | after a failure the cache is unchanged and the next request computes again |
| AnalyticsRoutes.TopicRoute | app/modules/analytics/analytics.routes.ts:229-237 | the path topic is passed verbatim and the topic report is sent uncached, as computed |
| AnalyticsRoutes.OverallRoute | app/modules/analytics/analytics.routes.ts:219-227 | without a user from the gate the answer is 500; otherwise the rollup for that user's subject id, or 500 for an unknown one |
| AnalyticsRoutes.Dispatch | app/modules/analytics/analytics.routes.ts:219-243 | the router made at line 6 keeps Express's default case-insensitive matching, so the fixed words match in any ASCII case; '/overall' is tried first, then '/topic/:topic', then '/:alias', each parameter being one non-empty segment |
| AnalyticsRoutes.AliasOverallShadowed | app/modules/analytics/analytics.routes.ts:219-243 | the report of a link whose alias is 'overall' in any ASCII case can never be reached |
| AnalyticsRoutes.FixedSegmentsIgnoreCase | app/modules/analytics/analytics.routes.ts:219-237 | 'OVERALL' or 'Topic/x' in any ASCII case reach the overall and topic handlers |
| Scenarios.CreateKeepsAliasesBacked | app/modules/url/url.service.ts:41-51 | after a creation every non-empty alias still equals its row's short URL minus the base, so aliases stay unique |
| Scenarios.CreateThenRedirect | app/modules/url/url.routes.ts:39-60 | for the corrected Redirect: right after a link is created with an alias, visiting that alias records one event for the new link and redirects to its long URL |
| Scenarios.RedirectAddsOneClick | app/modules/url/url.routes.ts:56-59 | for the corrected Redirect: a successful redirect adds one click to its link's total and none to any other link |
| Scenarios.ManyRedirectsManyClicks | app/modules/url/url.routes.ts:56-59 | for the corrected Redirect: n visits of a known alias add n clicks; visits of an unknown alias record nothing |
| Scenarios.CreateManyKeepsPairsUnique | app/modules/url/url.service.ts:32-51 | any run of creations leaves at most one live link per (owner, long URL) |

## Left out

- I/O and infrastructure: the Express bootstrap, middleware, Swagger and
  the health-check handler; the database and Redis connection setup; the
  client event handlers; logging. The model keeps only the status-code rule.
- Concurrency: `Promise.all` fan-out and the check-then-insert race in
  `createUrl`. Operations are modelled as running one after another.
- OAuth and JWT: the identity provider's answer is a `Result` parameter,
  and `createJwtToken`/`verifyJwtToken` are not modelled.
- The geographic lookup `getGeoLocation` is the parameter function `geo`.
- Randomness: the generated code is any 8-character URL-safe string, and
  the jitter any integer in [0, 200).
- JSON encoding of the cached report: the `encode`/`decode` parameters.
- Redis client failures: a failing `get` or `set` is not modelled. Neither
  is what happens after the reconnect strategy gives up.
- `updatedAt` and `deletedAt` timestamps: only a `deleted` flag is kept.
- The analytics service's `getAllAnalytics`/`getOneAnalytics` and the URL
  service's `getAllUrls`/`updateOneUrl`/`deleteOneUrl` are one-line
  pass-throughs. They are covered by the repository members they call.
- The redirect cache expected by the URL route tests. The source has none
  on that path, so the model has none.
- `ERROR_CODES`, `USER_CONSTANTS`, `SHORT_BASE_URL`, `URL_ROUTES`,
  `ANALYTICS_ROUTES` and `OTHER_ROUTES` are defined in files that are not part
  of this model. The codes are taken as 403, 404 and 500. The user module's
  not-found error is taken as 404 "USER NOT FOUND". The base URL and the
  favicon route are parameters.
- The authorisation gate is never mounted by `registerRoutes`. The handlers
  receive the gate's user as an `Option` parameter, and `None` is what
  reaches them when the gate did not run.
- Details of express-rate-limit other than its counting rule: client keying
  (the client key is a parameter) and the draft-8 headers.
- UrlRoutes.Redirect: the `id ?? 0` fallback is not modelled, because a
  stored link always has an id.
- Text.Lower: only ASCII letters are folded. `toLowerCase` and the `/i`
  regular expressions without the `u` flag fold other characters too.
- AnalyticsRepo.Groups: the groups come out in first-occurrence order. SQL
  leaves the order unspecified, so only the set of entries is promised.
- AnalyticsRepo.UrlsByTopic: the rows follow the model's ascending id order.
  The query has no `ORDER BY`, so SQL promises no order; only the rows and
  their contents match the source.
- AnalyticsRepo.TopicUrlsAscending: the ascending order is the model's
  choice, for the same reason. The source's guarantee is only that each link
  is listed once.
- AnalyticsRepo.PairGroups: entries come in the first-occurrence order of
  their (value, link) pairs. The grouped query has no `ORDER BY`, so only the
  set of entries and their counts match the source.
- AnalyticsRepo.OverallAnalyticsOfUser: the order of the `osType` and
  `deviceType` entries is that of AnalyticsRepo.PairGroups, which SQL does
  not promise.
- AnalyticsRepo.PairGroups: entries are named by the OS or device value
  only, as in the response. The link id they are grouped by is not kept.
- AnalyticsRepo.LastSevenDays: the local time zone is a fixed offset
  parameter. Daylight-saving changes are not modelled.
- AnalyticsRepo.UniqueUsers: addresses are never null in the model. SQL's
  `COUNT(DISTINCT ...)` would skip null addresses.
- UrlRepo.UpdateOne: the update is assumed to touch live rows only. A patch
  cannot set `customAlias` or `topic` back to null. An absent field means
  "keep", and an explicit null is not representable.
- UrlRepo.Create: the unique index on `shortUrl` is assumed to cover
  soft-deleted rows too, as a plain unique index does.
- AnalyticsRepo.OsTypeAnalytics: each entry's `uniqueClicks` is the raw
  `COUNT` value, which the Postgres driver returns as a string; the model
  gives it as a number. `uniqueUsers` comes from `count`, which is a number
  in the source too.
- AnalyticsRepo.DeviceTypeAnalytics: the same string-valued `uniqueClicks`
  as in the OS breakdown.
- AnalyticsRoutes.Dispatch: Express's non-strict trailing-slash matching and
  the percent-decoding of path parameters are not modelled.
- AnalyticsService.OverallAnalytics: for an unknown subject id, the store's
  rejection of an `undefined` where-value is modelled directly as the
  service's INTERNAL_SERVER_ERROR.

## Findings

| source | as written | input that shows it | evidently intended | confidence | as-written member | corrected member |
|---|---|---|---|---|---|---|
| app/modules/url/url.routes.ts:56 | the redirect calls `analyticsService.CreateAnalytics`, but the service exports `createAnalytics` (analytics.service.ts:89), so the call throws a TypeError | any GET /url/shorten/:alias whose alias belongs to a live link: 500, no event recorded, no redirect | record the visit through `createAnalytics`, then redirect | high, not executed | UrlRoutes.RedirectAsWritten (UrlRoutes.RedirectAsWrittenNeverRedirects) | UrlRoutes.Redirect |
| app/modules/auth/auth.service.ts:10-12 | a new user is created from `{ email }` alone, but the users table declares `sub` NOT NULL (user.schema.ts:14-18) | the first login of any email not yet stored: the insert is refused | store the verified `sub` together with the email | medium, not executed | AuthService.LoginAsWritten (AuthService.FirstLoginAsWrittenFails) | AuthService.Login |

=== FILE: analytics_repo.dfy ===
/** The visit-event table and the aggregate queries over it. Every query
    reads only live (not soft-deleted) events. A "scope" is the live events
    of a set of link ids; each query is a count, a distinct count or a
    grouping over a scope. */
module AnalyticsRepo {
  import opened Results
  import opened Counting
  import UrlRepo

  /** A stored visit event (`IAnalytics`); `createdAt` is in milliseconds. */
  datatype Event = Event(
    id: nat,
    urlId: nat,
    userAgent: string,
    ipAddress: string,
    osName: string,
    deviceType: string,
    geoLocation: string,
    createdAt: int,
    deleted: bool)

  /** The fields an event is created from (`CreateAnalyticsDto`). */
  datatype NewEvent = NewEvent(
    urlId: nat,
    userAgent: string,
    ipAddress: string,
    osName: string,
    deviceType: string,
    geoLocation: string)

  type EventTable = seq<Event>

  /** Ids are assigned 1, 2, 3, ... in insertion order. */
  predicate Valid(t: EventTable) {
    forall i :: 0 <= i < |t| ==> t[i].id == i + 1
  }

  /** `create(dto)`: one live event with exactly the given fields, the next
      id and the store's clock reading `now`, appended. */
  function Create(t: EventTable, dto: NewEvent, now: int): (r: (EventTable, Event))
    requires Valid(t)
    ensures r.0 == t + [r.1] && Valid(r.0)
    ensures r.1.id == |t| + 1 && r.1.createdAt == now && !r.1.deleted
    ensures NewEvent(r.1.urlId, r.1.userAgent, r.1.ipAddress, r.1.osName, r.1.deviceType, r.1.geoLocation) == dto
  {
    var e := Event(|t| + 1, dto.urlId, dto.userAgent, dto.ipAddress, dto.osName,
                   dto.deviceType, dto.geoLocation, now, false);
    (t + [e], e)
  }

  /** `getAll()`: the live events, in insertion order. */
  function GetAll(t: EventTable): (r: seq<Event>)
    ensures forall e :: e in r <==> e in t && !e.deleted
    ensures |r| <= |t|
  {
    if |t| == 0 then []
    else
      var rest := GetAll(t[1..]);
      assert forall e :: e in t <==> e == t[0] || e in t[1..];
      if t[0].deleted then rest else [t[0]] + rest
  }

  /** `getOne(filter)`: the first live event the where-clause accepts, or
      nothing when none does. */
  function GetOne(t: EventTable, accepts: Event -> bool): (r: Option<Event>)
    ensures r.Some? ==> r.value in t && !r.value.deleted && accepts(r.value)
    ensures r.None? <==> forall i :: 0 <= i < |t| ==> t[i].deleted || !accepts(t[i])
  {
    if |t| == 0 then None
    else if !t[0].deleted && accepts(t[0]) then Some(t[0])
    else
      var r := GetOne(t[1..], accepts);
      assert forall i :: 1 <= i < |t| ==> t[i] == t[1..][i - 1];
      r
  }

  // ---------------------------------------------------------------- days

  /** Milliseconds in a UTC day. */
  const DAY_MS: int := 24 * 60 * 60 * 1000

  /** The UTC day number holding instant `ms` (days since the epoch). */
  function DayOf(ms: int): int {
    ms / DAY_MS
  }

  /** First millisecond of a day: `<date>T00:00:00.000Z`. */
  function DayStart(day: int): int {
    day * DAY_MS
  }

  /** Last millisecond of a day: `<date>T23:59:59.999Z`. */
  function DayEnd(day: int): int {
    day * DAY_MS + DAY_MS - 1
  }

  /** An instant lies in a day's closed interval exactly when it belongs to
      that day, so the seven intervals of the series never overlap. */
  lemma DayOfIff(ms: int, day: int)
    ensures DayStart(day) <= ms <= DayEnd(day) <==> DayOf(ms) == day
  {
    var q := ms / DAY_MS;
    var k := q - day;
    MultipleOfDay(k);
    assert ms - DayStart(day) == k * DAY_MS + ms % DAY_MS;
  }

  /** A non-zero multiple of a day is at least a day away from zero. */
  lemma MultipleOfDay(k: int)
    ensures k >= 1 ==> k * DAY_MS >= DAY_MS
    ensures k <= -1 ==> k * DAY_MS <= -DAY_MS
  {
  }

  /** `last7Days`, computed once when the module is loaded at instant
      `loadMs`. The date strings are formatted in the server's local time
      zone, whose offset from UTC is `offsetMs`, while each day's interval is
      then read as UTC: the local date first, then each of the six days
      before it. */
  function LastSevenDays(loadMs: int, offsetMs: int): (days: seq<int>)
    ensures |days| == 7
    ensures DayStart(days[0]) <= loadMs + offsetMs <= DayEnd(days[0])
    ensures forall i :: 0 < i < 7 ==> days[i] == days[i - 1] - 1
    ensures Distinct(days)
  {
    var today := DayOf(loadMs + offsetMs);
    DayOfIff(loadMs + offsetMs, today);
    [today, today - 1, today - 2, today - 3, today - 4, today - 5, today - 6]
  }

  // ---------------------------------------------------------- projections

  /** The live events whose link id is in `ids`. */
  function Scope(evs: seq<Event>, ids: set<nat>): (r: seq<Event>)
    ensures forall e :: e in r <==> e in evs && !e.deleted && e.urlId in ids
    ensures |r| <= |evs|
  {
    if |evs| == 0 then []
    else
      var rest := Scope(evs[1..], ids);
      assert forall e :: e in evs <==> e == evs[0] || e in evs[1..];
      if !evs[0].deleted && evs[0].urlId in ids then [evs[0]] + rest else rest
  }

  /** The link ids of the live events, in order. */
  function LiveUrlIds(evs: seq<Event>): seq<nat> {
    if |evs| == 0 then []
    else (if evs[0].deleted then [] else [evs[0].urlId]) + LiveUrlIds(evs[1..])
  }

  /** The client addresses of the events, in order. */
  function Ips(evs: seq<Event>): (r: seq<string>)
    ensures |r| == |evs|
    ensures forall i :: 0 <= i < |evs| ==> r[i] == evs[i].ipAddress
  {
    if |evs| == 0 then [] else [evs[0].ipAddress] + Ips(evs[1..])
  }

  /** The UTC day of each event, in order. */
  function Days(evs: seq<Event>): (r: seq<int>)
    ensures |r| == |evs|
    ensures forall i :: 0 <= i < |evs| ==> r[i] == DayOf(evs[i].createdAt)
  {
    if |evs| == 0 then [] else [DayOf(evs[0].createdAt)] + Days(evs[1..])
  }

  /** The two columns the breakdowns group by. */
  datatype Dimension = Os | Device

  function Key(e: Event, dim: Dimension): string {
    match dim
    case Os => e.osName
    case Device => e.deviceType
  }

  /** The grouping column of each event, in order. */
  function Keys(evs: seq<Event>, dim: Dimension): (r: seq<string>)
    ensures |r| == |evs|
    ensures forall i :: 0 <= i < |evs| ==> r[i] == Key(evs[i], dim)
  {
    if |evs| == 0 then [] else [Key(evs[0], dim)] + Keys(evs[1..], dim)
  }

  /** The grouping column paired with the link id, in order. */
  function PairKeys(evs: seq<Event>, dim: Dimension): (r: seq<(string, nat)>)
    ensures |r| == |evs|
    ensures forall i :: 0 <= i < |evs| ==> r[i] == (Key(evs[i], dim), evs[i].urlId)
  {
    if |evs| == 0 then [] else [(Key(evs[0], dim), evs[0].urlId)] + PairKeys(evs[1..], dim)
  }

  /** The events whose grouping column holds `name`. */
  function WithKey(evs: seq<Event>, dim: Dimension, name: string): (r: seq<Event>)
    ensures forall e :: e in r <==> e in evs && Key(e, dim) == name
  {
    if |evs| == 0 then []
    else
      var rest := WithKey(evs[1..], dim, name);
      assert forall e :: e in evs <==> e == evs[0] || e in evs[1..];
      (if Key(evs[0], dim) == name then [evs[0]] else []) + rest
  }

  /** Number of events created within `[lo, hi]`. */
  function CountInWindow(evs: seq<Event>, lo: int, hi: int): (n: nat)
    ensures n <= |evs|
  {
    if |evs| == 0 then 0
    else (if lo <= evs[0].createdAt <= hi then 1 else 0) + CountInWindow(evs[1..], lo, hi)
  }

  // ------------------------------------------------- counting identities

  /** A scope holds as many events as there are live link ids in it. */
  lemma {:induction false} ScopeSize(evs: seq<Event>, ids: set<nat>)
    ensures |Scope(evs, ids)| == CountIn(LiveUrlIds(evs), ids)
  {
    if |evs| > 0 {
      ScopeSize(evs[1..], ids);
      var head := if evs[0].deleted then [] else [evs[0].urlId];
      CountInAppend(head, LiveUrlIds(evs[1..]), ids);
    }
  }

  /** A group holds as many events as its value occurs in the column. */
  lemma {:induction false} WithKeySize(evs: seq<Event>, dim: Dimension, name: string)
    ensures |WithKey(evs, dim, name)| == Occurrences(Keys(evs, dim), name)
  {
    if |evs| > 0 {
      WithKeySize(evs[1..], dim, name);
    }
  }

  /** The events of a day's interval are the events whose day is that day. */
  lemma {:induction false} WindowIsDay(evs: seq<Event>, day: int)
    ensures CountInWindow(evs, DayStart(day), DayEnd(day)) == Occurrences(Days(evs), day)
  {
    if |evs| > 0 {
      DayOfIff(evs[0].createdAt, day);
      WindowIsDay(evs[1..], day);
    }
  }

  // --------------------------------------------------------- per link

  /** `totalClicks(urlId)`: the live events of the link. */
  function TotalClicks(evs: seq<Event>, urlId: nat): (n: nat)
    ensures n == Occurrences(LiveUrlIds(evs), urlId)
    ensures n <= |evs|
  {
    ScopeSize(evs, {urlId});
    |Scope(evs, {urlId})|
  }

  /** Distinct client addresses among some events (`COUNT(DISTINCT ipAddress)`). */
  function DistinctIps(scoped: seq<Event>): (n: nat)
    ensures n == |set e | e in scoped :: e.ipAddress|
    ensures n <= |scoped|
    ensures |scoped| > 0 ==> n >= 1
  {
    IpsAreAddresses(scoped);
    ElementsBound(Ips(scoped));
    if |scoped| > 0 then
      assert Ips(scoped)[0] in Elements(Ips(scoped));
      |Elements(Ips(scoped))|
    else |Elements(Ips(scoped))|
  }

  /** The address column holds exactly the events' addresses. */
  lemma {:induction false} IpsAreAddresses(evs: seq<Event>)
    ensures Elements(Ips(evs)) == set e | e in evs :: e.ipAddress
  {
    if |evs| > 0 {
      IpsAreAddresses(evs[1..]);
      assert Elements(Ips(evs)) == {evs[0].ipAddress} + Elements(Ips(evs[1..])) by {
        assert Ips(evs) == [evs[0].ipAddress] + Ips(evs[1..]);
      }
      assert (set e | e in evs :: e.ipAddress)
             == {evs[0].ipAddress} + set e | e in evs[1..] :: e.ipAddress by {
        assert forall e :: e in evs <==> e == evs[0] || e in evs[1..];
      }
    }
  }

  /** The addresses of a scope are the addresses of the live events of its
      links. */
  lemma ScopeAddresses(evs: seq<Event>, ids: set<nat>)
    ensures (set e | e in Scope(evs, ids) :: e.ipAddress)
            == set e | e in evs && !e.deleted && e.urlId in ids :: e.ipAddress
  {
  }

  /** `uniqueUsers(urlId)`: distinct client addresses among the link's live
      events; never more than its clicks, and at least one when it has any. */
  function UniqueUsers(evs: seq<Event>, urlId: nat): (n: nat)
    ensures n == |set e | e in evs && !e.deleted && e.urlId == urlId :: e.ipAddress|
    ensures n <= TotalClicks(evs, urlId)
    ensures TotalClicks(evs, urlId) > 0 ==> n > 0
  {
    var scoped := Scope(evs, {urlId});
    assert (set e | e in scoped :: e.ipAddress)
           == set e | e in evs && !e.deleted && e.urlId == urlId :: e.ipAddress;
    DistinctIps(scoped)
  }

  /** One point of the daily series. */
  datatype DayCount = DayCount(day: int, count: nat)

  /** For each day, in the given order, the events created within that
      day's closed millisecond interval; days without events keep a zero. */
  function DailySeries(scoped: seq<Event>, days: seq<int>): (r: seq<DayCount>)
    ensures |r| == |days|
    ensures forall i :: 0 <= i < |days| ==> r[i].day == days[i]
    ensures forall i :: 0 <= i < |days| ==>
      r[i].count == CountInWindow(scoped, DayStart(days[i]), DayEnd(days[i]))
  {
    if |days| == 0 then []
    else [DayCount(days[0], CountInWindow(scoped, DayStart(days[0]), DayEnd(days[0])))]
         + DailySeries(scoped, days[1..])
  }

  /** Sum of the counts of a series. */
  function SumCounts(series: seq<DayCount>): nat {
    if |series| == 0 then 0 else series[0].count + SumCounts(series[1..])
  }

  /** The series over distinct days counts each event at most once, so it
      never adds up to more than the scope. */
  lemma {:induction false} DailySeriesBound(scoped: seq<Event>, days: seq<int>)
    requires Distinct(days)
    ensures SumCounts(DailySeries(scoped, days)) <= |scoped|
  {
    SeriesIsSumOccurrences(scoped, days);
    SumOccurrencesIsCountIn(days, Days(scoped));
  }

  lemma {:induction false} SeriesIsSumOccurrences(scoped: seq<Event>, days: seq<int>)
    ensures SumCounts(DailySeries(scoped, days)) == SumOccurrences(days, Days(scoped))
  {
    if |days| > 0 {
      WindowIsDay(scoped, days[0]);
      SeriesIsSumOccurrences(scoped, days[1..]);
    }
  }

  /** `clickByDate(urlId)`: the daily series of the link's live events. */
  function ClickByDate(evs: seq<Event>, urlId: nat, days: seq<int>): (r: seq<DayCount>)
    ensures |r| == |days|
    ensures forall i :: 0 <= i < |days| ==> r[i].day == days[i]
    ensures forall i :: 0 <= i < |days| ==>
      r[i].count == CountInWindow(Scope(evs, {urlId}), DayStart(days[i]), DayEnd(days[i]))
    ensures Distinct(days) ==> SumCounts(r) <= TotalClicks(evs, urlId)
  {
    var series := DailySeries(Scope(evs, {urlId}), days);
    if Distinct(days) then
      DailySeriesBound(Scope(evs, {urlId}), days);
      series
    else series
  }

  // --------------------------------------------------------- breakdowns

  /** One row of an OS or device breakdown. */
  datatype GroupEntry = GroupEntry(name: string, uniqueClicks: nat, uniqueUsers: nat)

  /** The entries for the given group values, in order. */
  function BuildGroups(scoped: seq<Event>, dim: Dimension, names: seq<string>): (r: seq<GroupEntry>)
    ensures |r| == |names|
    ensures forall i :: 0 <= i < |names| ==> r[i].name == names[i]
    ensures forall i :: 0 <= i < |names| ==> r[i].uniqueClicks == Occurrences(Keys(scoped, dim), names[i])
    ensures forall i :: 0 <= i < |names| ==>
      r[i].uniqueUsers == |set e | e in scoped && Key(e, dim) == names[i] :: e.ipAddress|
    ensures forall i :: 0 <= i < |names| ==> r[i].uniqueUsers <= r[i].uniqueClicks
  {
    if |names| == 0 then []
    else
      GroupOfName(scoped, dim, names[0]);
      [GroupEntry(names[0], Occurrences(Keys(scoped, dim), names[0]), DistinctIps(WithKey(scoped, dim, names[0])))]
      + BuildGroups(scoped, dim, names[1..])
  }

  /** One group's distinct addresses are those of the events holding its
      value, and never more than its clicks. */
  lemma GroupOfName(scoped: seq<Event>, dim: Dimension, name: string)
    ensures DistinctIps(WithKey(scoped, dim, name))
            == |set e | e in scoped && Key(e, dim) == name :: e.ipAddress|
    ensures DistinctIps(WithKey(scoped, dim, name)) <= Occurrences(Keys(scoped, dim), name)
  {
    var members := WithKey(scoped, dim, name);
    WithKeySize(scoped, dim, name);
    assert (set e | e in members :: e.ipAddress)
           == set e | e in scoped && Key(e, dim) == name :: e.ipAddress;
  }

  /** Sum of the click counts of a breakdown. */
  function SumClicks(groups: seq<GroupEntry>): nat {
    if |groups| == 0 then 0 else groups[0].uniqueClicks + SumClicks(groups[1..])
  }

  lemma {:induction false} GroupsAreSumOccurrences(scoped: seq<Event>, dim: Dimension, names: seq<string>)
    ensures SumClicks(BuildGroups(scoped, dim, names)) == SumOccurrences(names, Keys(scoped, dim))
  {
    if |names| > 0 {
      GroupsAreSumOccurrences(scoped, dim, names[1..]);
    }
  }

  /** `GROUP BY <column>` over a scope: one entry per distinct value, with the
      group's size and its distinct client addresses. The groups partition
      the scope. */
  function Groups(scoped: seq<Event>, dim: Dimension): (r: seq<GroupEntry>)
    ensures forall i, j :: 0 <= i < j < |r| ==> r[i].name != r[j].name
    ensures forall e :: e in scoped ==> exists i :: 0 <= i < |r| && r[i].name == Key(e, dim)
    ensures forall i :: 0 <= i < |r| ==> r[i].name in Keys(scoped, dim)
    ensures forall i :: 0 <= i < |r| ==> 0 < r[i].uniqueClicks && r[i].uniqueUsers <= r[i].uniqueClicks
    ensures forall i :: 0 <= i < |r| ==> r[i].uniqueClicks == Occurrences(Keys(scoped, dim), r[i].name)
    ensures forall i :: 0 <= i < |r| ==>
      r[i].uniqueUsers == |set e | e in scoped && Key(e, dim) == r[i].name :: e.ipAddress|
    ensures SumClicks(r) == |scoped|
  {
    GroupsShape(scoped, dim);
    GroupsPartition(scoped, dim);
    BuildGroups(scoped, dim, Dedup(Keys(scoped, dim)))
  }

  /** The entries built over the deduplicated values: distinct names, one for
      every event, each a value of the scope with a non-empty group. */
  lemma GroupsShape(scoped: seq<Event>, dim: Dimension)
    ensures var r := BuildGroups(scoped, dim, Dedup(Keys(scoped, dim)));
      && (forall i, j :: 0 <= i < j < |r| ==> r[i].name != r[j].name)
      && (forall e :: e in scoped ==> exists i :: 0 <= i < |r| && r[i].name == Key(e, dim))
      && (forall i :: 0 <= i < |r| ==> r[i].name in Keys(scoped, dim))
      && (forall i :: 0 <= i < |r| ==> 0 < r[i].uniqueClicks && r[i].uniqueUsers <= r[i].uniqueClicks)
  {
    GroupsDistinct(scoped, dim);
    forall e | e in scoped {
      GroupsCover(scoped, dim, e);
    }
    GroupsPresent(scoped, dim);
  }

  lemma GroupsDistinct(scoped: seq<Event>, dim: Dimension)
    ensures var r := BuildGroups(scoped, dim, Dedup(Keys(scoped, dim)));
      forall i, j :: 0 <= i < j < |r| ==> r[i].name != r[j].name
  {
    var names := Dedup(Keys(scoped, dim));
    var r := BuildGroups(scoped, dim, names);
    assert forall i :: 0 <= i < |r| ==> r[i].name == names[i];
  }

  lemma GroupsCover(scoped: seq<Event>, dim: Dimension, e: Event)
    requires e in scoped
    ensures exists i :: 0 <= i < |BuildGroups(scoped, dim, Dedup(Keys(scoped, dim)))|
                     && BuildGroups(scoped, dim, Dedup(Keys(scoped, dim)))[i].name == Key(e, dim)
  {
    var names := Dedup(Keys(scoped, dim));
    var r := BuildGroups(scoped, dim, names);
    NamesAreKeys(scoped, dim);
    var i :| 0 <= i < |names| && names[i] == Key(e, dim);
    assert r[i].name == Key(e, dim);
  }

  lemma GroupsPresent(scoped: seq<Event>, dim: Dimension)
    ensures var r := BuildGroups(scoped, dim, Dedup(Keys(scoped, dim)));
      forall i :: 0 <= i < |r| ==> r[i].name in Keys(scoped, dim) && 0 < r[i].uniqueClicks
  {
    var keys := Keys(scoped, dim);
    var names := Dedup(keys);
    var r := BuildGroups(scoped, dim, names);
    NamesAreKeys(scoped, dim);
    forall i | 0 <= i < |r|
      ensures r[i].name in keys && 0 < r[i].uniqueClicks
    {
      assert names[i] in names;
    }
  }

  /** The groups' sizes add up to the scope. */
  lemma GroupsPartition(scoped: seq<Event>, dim: Dimension)
    ensures SumClicks(BuildGroups(scoped, dim, Dedup(Keys(scoped, dim)))) == |scoped|
  {
    var keys := Keys(scoped, dim);
    var names := Dedup(keys);
    GroupsAreSumOccurrences(scoped, dim, names);
    SumOccurrencesIsCountIn(names, keys);
    CountInAll(keys, Elements(names));
  }

  /** The group values are exactly the values the scope's events hold, and
      each occurs at least once. */
  lemma NamesAreKeys(scoped: seq<Event>, dim: Dimension)
    ensures forall e :: e in scoped ==> Key(e, dim) in Dedup(Keys(scoped, dim))
    ensures forall k :: k in Dedup(Keys(scoped, dim)) ==> k in Keys(scoped, dim)
    ensures forall k :: k in Dedup(Keys(scoped, dim)) ==> Occurrences(Keys(scoped, dim), k) > 0
  {
    var keys := Keys(scoped, dim);
    var names := Dedup(keys);
    KeysOfMembers(scoped, dim);
    assert forall k :: k in names <==> k in Elements(names);
    assert forall k :: k in keys <==> k in Elements(keys);
    forall k | k in names
      ensures Occurrences(keys, k) > 0
    {
      OccurrencesPositive(keys, k);
    }

  }

  /** The grouping column of the events is exactly the column's values. */
  lemma {:induction false} KeysOfMembers(evs: seq<Event>, dim: Dimension)
    ensures forall e :: e in evs ==> Key(e, dim) in Keys(evs, dim)
    ensures forall k :: k in Keys(evs, dim) ==> exists e :: e in evs && Key(e, dim) == k
  {
    if |evs| > 0 {
      KeysOfMembers(evs[1..], dim);
      assert forall e :: e in evs ==> e == evs[0] || e in evs[1..];
    }
  }

  /** A value that occurs in a sequence occurs a positive number of times. */
  lemma {:induction false} OccurrencesPositive<K>(s: seq<K>, k: K)
    requires k in s
    ensures Occurrences(s, k) > 0
  {
    if s[0] != k {
      OccurrencesPositive(s[1..], k);
    }
  }

  /** `osTypeAnalytics(urlId)`: the link's live events grouped by OS
      (`Key(e, Os)` is the event's `osName`). */
  function OsTypeAnalytics(evs: seq<Event>, urlId: nat): (r: seq<GroupEntry>)
    ensures forall i, j :: 0 <= i < j < |r| ==> r[i].name != r[j].name
    ensures forall e :: e in evs && !e.deleted && e.urlId == urlId ==>
      exists i :: 0 <= i < |r| && r[i].name == Key(e, Os)
    ensures forall i :: 0 <= i < |r| ==> r[i].uniqueClicks == Occurrences(Keys(Scope(evs, {urlId}), Os), r[i].name)
    ensures forall i :: 0 <= i < |r| ==>
      r[i].uniqueUsers == |set e | e in evs && !e.deleted && e.urlId == urlId && Key(e, Os) == r[i].name :: e.ipAddress|
    ensures forall i :: 0 <= i < |r| ==> 0 < r[i].uniqueClicks && r[i].uniqueUsers <= r[i].uniqueClicks
    ensures SumClicks(r) == TotalClicks(evs, urlId)
  {
    LinkBreakdown(evs, urlId, Os);
    Groups(Scope(evs, {urlId}), Os)
  }

  /** `deviceTypeAnalytics(urlId)`: the same grouping by device type (the
      value is reported as `deviceName`; `Key(e, Device)` is `deviceType`). */
  function DeviceTypeAnalytics(evs: seq<Event>, urlId: nat): (r: seq<GroupEntry>)
    ensures forall i, j :: 0 <= i < j < |r| ==> r[i].name != r[j].name
    ensures forall e :: e in evs && !e.deleted && e.urlId == urlId ==>
      exists i :: 0 <= i < |r| && r[i].name == Key(e, Device)
    ensures forall i :: 0 <= i < |r| ==> r[i].uniqueClicks == Occurrences(Keys(Scope(evs, {urlId}), Device), r[i].name)
    ensures forall i :: 0 <= i < |r| ==>
      r[i].uniqueUsers == |set e | e in evs && !e.deleted && e.urlId == urlId && Key(e, Device) == r[i].name :: e.ipAddress|
    ensures forall i :: 0 <= i < |r| ==> 0 < r[i].uniqueClicks && r[i].uniqueUsers <= r[i].uniqueClicks
    ensures SumClicks(r) == TotalClicks(evs, urlId)
  {
    LinkBreakdown(evs, urlId, Device);
    Groups(Scope(evs, {urlId}), Device)
  }

  /** A link's breakdown by either column, stated on the event table: each
      entry's distinct addresses are those of the link's live events holding
      its value, and the entries' clicks add up to the link's total. */
  lemma LinkBreakdown(evs: seq<Event>, urlId: nat, dim: Dimension)
    ensures var r := Groups(Scope(evs, {urlId}), dim);
      && (forall i :: 0 <= i < |r| ==>
            r[i].uniqueUsers == |set e | e in evs && !e.deleted && e.urlId == urlId && Key(e, dim) == r[i].name :: e.ipAddress|)
      && SumClicks(r) == TotalClicks(evs, urlId)
  {
    var r := Groups(Scope(evs, {urlId}), dim);
    forall i | 0 <= i < |r|
      ensures r[i].uniqueUsers
              == |set e | e in evs && !e.deleted && e.urlId == urlId && Key(e, dim) == r[i].name :: e.ipAddress|
    {
      LinkGroupAddresses(evs, urlId, dim, r[i].name);
    }
  }

  lemma LinkGroupAddresses(evs: seq<Event>, urlId: nat, dim: Dimension, name: string)
    ensures (set e | e in Scope(evs, {urlId}) && Key(e, dim) == name :: e.ipAddress)
            == (set e | e in evs && !e.deleted && e.urlId == urlId && Key(e, dim) == name :: e.ipAddress)
  {
  }


  // ------------------------------------------------------------- topics

  /** Ids strictly increase along the rows. */
  predicate Ascending(rows: seq<UrlRepo.UrlRecord>) {
    forall i, j :: 0 <= i < j < |rows| ==> rows[i].id < rows[j].id
  }

  /** The ids of the rows, in order. */
  function Ids(rows: seq<UrlRepo.UrlRecord>): (r: seq<nat>)
    ensures |r| == |rows|
    ensures forall i :: 0 <= i < |rows| ==> r[i] == rows[i].id
  {
    if |rows| == 0 then [] else [rows[0].id] + Ids(rows[1..])
  }

  /** Rows with ascending ids have distinct ids. */
  lemma AscendingIdsDistinct(rows: seq<UrlRepo.UrlRecord>)
    requires Ascending(rows)
    ensures Distinct(Ids(rows))
  {
  }

  /** `urlModel.findAll({ where: { topic } })`: the live links filed under
      the topic, in insertion order. */
  function TopicUrls(urls: seq<UrlRepo.UrlRecord>, topic: string): (r: seq<UrlRepo.UrlRecord>)
    ensures forall u :: u in r <==> u in urls && !u.deleted && u.topic == Some(topic)
  {
    if |urls| == 0 then []
    else
      var rest := TopicUrls(urls[1..], topic);
      assert forall u :: u in urls <==> u == urls[0] || u in urls[1..];
      if !urls[0].deleted && urls[0].topic == Some(topic) then [urls[0]] + rest else rest
  }

  /** Filtering keeps the ids ascending. */
  lemma {:induction false} TopicUrlsAscending(urls: seq<UrlRepo.UrlRecord>, topic: string)
    requires Ascending(urls)
    ensures Ascending(TopicUrls(urls, topic))
  {
    if |urls| > 0 {
      TopicUrlsAscending(urls[1..], topic);
      var rest := TopicUrls(urls[1..], topic);
      forall j | 0 <= j < |rest|
        ensures urls[0].id < rest[j].id
      {
        assert rest[j] in rest;
        var k :| 0 <= k < |urls[1..]| && urls[1..][k] == rest[j];
        assert urls[k + 1] == rest[j];
      }
    }
  }

  /** The live events of the topic's links. */
  function TopicScope(urls: seq<UrlRepo.UrlRecord>, evs: seq<Event>, topic: string): seq<Event> {
    Scope(evs, Elements(Ids(TopicUrls(urls, topic))))
  }

  /** A link id is in the topic's id list exactly when a live link of the
      topic has it. */
  lemma TopicIdsAreTopicLinks(urls: seq<UrlRepo.UrlRecord>, topic: string, id: nat)
    ensures id in Elements(Ids(TopicUrls(urls, topic))) <==>
      exists u :: u in urls && !u.deleted && u.topic == Some(topic) && u.id == id
  {
    var rows := TopicUrls(urls, topic);
    var ids := Ids(rows);
    if id in Elements(ids) {
      var i :| 0 <= i < |ids| && ids[i] == id;
      assert rows[i] in rows;
    }
    if exists u :: u in urls && !u.deleted && u.topic == Some(topic) && u.id == id {
      var u :| u in urls && !u.deleted && u.topic == Some(topic) && u.id == id;
      var i :| 0 <= i < |rows| && rows[i] == u;
      assert ids[i] == id;
    }
  }

  /** `totalClicksByTopic(topic)`: the live events whose link id is one of
      the topic's live links. */
  function TotalClicksByTopic(urls: seq<UrlRepo.UrlRecord>, evs: seq<Event>, topic: string): (n: nat)
    ensures n == CountIn(LiveUrlIds(evs), Elements(Ids(TopicUrls(urls, topic))))
    ensures n <= |evs|
  {
    ScopeSize(evs, Elements(Ids(TopicUrls(urls, topic))));
    |TopicScope(urls, evs, topic)|
  }

  /** `uniqueUsersByTopic(topic)`: distinct client addresses among those events. */
  function UniqueUsersByTopic(urls: seq<UrlRepo.UrlRecord>, evs: seq<Event>, topic: string): (n: nat)
    ensures n == |set e | e in evs && !e.deleted && e.urlId in Elements(Ids(TopicUrls(urls, topic))) :: e.ipAddress|
    ensures n <= TotalClicksByTopic(urls, evs, topic)
    ensures TotalClicksByTopic(urls, evs, topic) > 0 ==> n > 0
  {
    ScopeAddresses(evs, Elements(Ids(TopicUrls(urls, topic))));
    DistinctIps(TopicScope(urls, evs, topic))
  }

  /** `clicksByDateForTopic(topic)`: the daily series of those events. */
  function ClicksByDateForTopic(urls: seq<UrlRepo.UrlRecord>, evs: seq<Event>, topic: string, days: seq<int>)
    : (r: seq<DayCount>)
    ensures |r| == |days|
    ensures forall i :: 0 <= i < |days| ==> r[i].day == days[i]
    ensures forall i :: 0 <= i < |days| ==>
      r[i].count == CountInWindow(TopicScope(urls, evs, topic), DayStart(days[i]), DayEnd(days[i]))
    ensures Distinct(days) ==> SumCounts(r) <= TotalClicksByTopic(urls, evs, topic)
  {
    var series := DailySeries(TopicScope(urls, evs, topic), days);
    if Distinct(days) then
      DailySeriesBound(TopicScope(urls, evs, topic), days);
      series
    else series
  }

  /** One row of `urlsByTopic`. */
  datatype UrlStat = UrlStat(shortUrl: string, totalClicks: nat, uniqueUsers: nat)

  /** Per-link clicks and distinct addresses for each row, in order. */
  function Stats(rows: seq<UrlRepo.UrlRecord>, evs: seq<Event>): (r: seq<UrlStat>)
    ensures |r| == |rows|
    ensures forall i :: 0 <= i < |rows| ==>
      r[i] == UrlStat(rows[i].shortUrl, TotalClicks(evs, rows[i].id), UniqueUsers(evs, rows[i].id))
  {
    if |rows| == 0 then []
    else [UrlStat(rows[0].shortUrl, TotalClicks(evs, rows[0].id), UniqueUsers(evs, rows[0].id))]
         + Stats(rows[1..], evs)
  }

  /** `urlsByTopic(topic)`: one row per live link of the topic. */
  function UrlsByTopic(urls: seq<UrlRepo.UrlRecord>, evs: seq<Event>, topic: string): (r: seq<UrlStat>)
    ensures |r| == |TopicUrls(urls, topic)|
    ensures forall i :: 0 <= i < |r| ==>
      var u := TopicUrls(urls, topic)[i];
      r[i] == UrlStat(u.shortUrl, TotalClicks(evs, u.id), UniqueUsers(evs, u.id))
    ensures forall i :: 0 <= i < |r| ==> r[i].uniqueUsers <= r[i].totalClicks
    ensures forall i :: 0 <= i < |r| ==> exists u :: u in urls && !u.deleted && u.topic == Some(topic)
                                                  && u.shortUrl == r[i].shortUrl
  {
    var rows := TopicUrls(urls, topic);
    var r := Stats(rows, evs);
    assert forall i :: 0 <= i < |r| ==> rows[i] in rows;
    r
  }

  /** Sum of the click totals of the rows. */
  function SumTotals(stats: seq<UrlStat>): nat {
    if |stats| == 0 then 0 else stats[0].totalClicks + SumTotals(stats[1..])
  }

  lemma {:induction false} StatsAreSumOccurrences(rows: seq<UrlRepo.UrlRecord>, evs: seq<Event>)
    ensures SumTotals(Stats(rows, evs)) == SumOccurrences(Ids(rows), LiveUrlIds(evs))
  {
    if |rows| > 0 {
      assert Ids(rows)[1..] == Ids(rows[1..]);
      StatsAreSumOccurrences(rows[1..], evs);
    }
  }

  /** The per-link rows of a topic add up to the topic's total: each live
      link of the topic is listed once, because ids are unique. */
  lemma UrlsByTopicAddsUp(urls: UrlRepo.UrlTable, evs: seq<Event>, topic: string)
    requires UrlRepo.Valid(urls)
    ensures SumTotals(UrlsByTopic(urls, evs, topic)) == TotalClicksByTopic(urls, evs, topic)
  {
    var rows := TopicUrls(urls, topic);
    assert Ascending(urls);
    TopicUrlsAscending(urls, topic);
    AscendingIdsDistinct(rows);
    StatsAreSumOccurrences(rows, evs);
    SumOccurrencesIsCountIn(Ids(rows), LiveUrlIds(evs));
    ScopeSize(evs, Elements(Ids(rows)));
  }

  // ------------------------------------------------------------ overall

  /** The user's live links, in insertion order. */
  function OwnedUrls(urls: seq<UrlRepo.UrlRecord>, userId: nat): (r: seq<UrlRepo.UrlRecord>)
    ensures forall u :: u in r <==> u in urls && !u.deleted && u.userId == userId
    ensures |r| <= |urls|
  {
    if |urls| == 0 then []
    else
      var rest := OwnedUrls(urls[1..], userId);
      assert forall u :: u in urls <==> u == urls[0] || u in urls[1..];
      if !urls[0].deleted && urls[0].userId == userId then [urls[0]] + rest else rest
  }

  /** The grouping entries for the given (value, link id) pairs. The
      per-group address count is `COUNT(ipAddress)`, not distinct, so it
      always equals the click count. */
  function BuildPairGroups(scoped: seq<Event>, dim: Dimension, pairs: seq<(string, nat)>)
    : (r: seq<GroupEntry>)
    ensures |r| == |pairs|
    ensures forall i :: 0 <= i < |pairs| ==> r[i].name == pairs[i].0
    ensures forall i :: 0 <= i < |pairs| ==> r[i].uniqueClicks == Occurrences(PairKeys(scoped, dim), pairs[i])
    ensures forall i :: 0 <= i < |pairs| ==> r[i].uniqueUsers == r[i].uniqueClicks
  {
    if |pairs| == 0 then []
    else
      var n := Occurrences(PairKeys(scoped, dim), pairs[0]);
      [GroupEntry(pairs[0].0, n, n)] + BuildPairGroups(scoped, dim, pairs[1..])
  }

  lemma {:induction false} PairGroupsAreSumOccurrences(scoped: seq<Event>, dim: Dimension, pairs: seq<(string, nat)>)
    ensures SumClicks(BuildPairGroups(scoped, dim, pairs)) == SumOccurrences(pairs, PairKeys(scoped, dim))
  {
    if |pairs| > 0 {
      PairGroupsAreSumOccurrences(scoped, dim, pairs[1..]);
    }
  }

  /** `GROUP BY <column>, url.id`: one entry per distinct (value, link)
      pair, so a value shared by several links appears once per link. The
      entries still partition the scope. */
  function PairGroups(scoped: seq<Event>, dim: Dimension): (r: seq<GroupEntry>)
    ensures |r| == |Dedup(PairKeys(scoped, dim))|
    ensures forall i :: 0 <= i < |r| ==> r[i].name == Dedup(PairKeys(scoped, dim))[i].0
    ensures forall i :: 0 <= i < |r| ==>
      r[i].uniqueClicks == Occurrences(PairKeys(scoped, dim), Dedup(PairKeys(scoped, dim))[i])
    ensures forall i :: 0 <= i < |r| ==> r[i].uniqueUsers == r[i].uniqueClicks
    ensures SumClicks(r) == |scoped|
  {
    var pairs := Dedup(PairKeys(scoped, dim));
    PairGroupsAreSumOccurrences(scoped, dim, pairs);
    SumOccurrencesIsCountIn(pairs, PairKeys(scoped, dim));
    CountInAll(PairKeys(scoped, dim), Elements(pairs));
    BuildPairGroups(scoped, dim, pairs)
  }

  /** `overallAnalyticsOfUser(userId)`. */
  datatype OverallReport = OverallReport(
    totalUrls: nat,
    totalClicks: nat,
    uniqueUsers: nat,
    clicksByDate: seq<DayCount>,
    osType: seq<GroupEntry>,
    deviceType: seq<GroupEntry>)

  /** Everything is over the live events of the user's live links. */
  function OverallAnalyticsOfUser(urls: seq<UrlRepo.UrlRecord>, evs: seq<Event>, userId: nat, days: seq<int>)
    : (r: OverallReport)
    ensures r.totalUrls == |OwnedUrls(urls, userId)|
    ensures r.totalClicks == |Scope(evs, Elements(Ids(OwnedUrls(urls, userId))))|
    ensures r.uniqueUsers
            == |set e | e in evs && !e.deleted && e.urlId in Elements(Ids(OwnedUrls(urls, userId))) :: e.ipAddress|
    ensures r.uniqueUsers <= r.totalClicks
    ensures |r.clicksByDate| == |days|
    ensures forall i :: 0 <= i < |days| ==> r.clicksByDate[i].day == days[i]
    ensures forall i :: 0 <= i < |days| ==>
      r.clicksByDate[i].count == CountInWindow(Scope(evs, Elements(Ids(OwnedUrls(urls, userId)))), DayStart(days[i]), DayEnd(days[i]))
    ensures r.osType == PairGroups(Scope(evs, Elements(Ids(OwnedUrls(urls, userId)))), Os)
    ensures r.deviceType == PairGroups(Scope(evs, Elements(Ids(OwnedUrls(urls, userId)))), Device)
    ensures Distinct(days) ==> SumCounts(r.clicksByDate) <= r.totalClicks
    ensures SumClicks(r.osType) == r.totalClicks && SumClicks(r.deviceType) == r.totalClicks
    ensures forall i :: 0 <= i < |r.osType| ==> r.osType[i].uniqueUsers == r.osType[i].uniqueClicks
    ensures forall i :: 0 <= i < |r.deviceType| ==> r.deviceType[i].uniqueUsers == r.deviceType[i].uniqueClicks
  {
    var scoped := Scope(evs, Elements(Ids(OwnedUrls(urls, userId))));
    ScopeAddresses(evs, Elements(Ids(OwnedUrls(urls, userId))));
    var series := DailySeries(scoped, days);
    var report := OverallReport(|OwnedUrls(urls, userId)|, |scoped|, DistinctIps(scoped), series,
                                PairGroups(scoped, Os), PairGroups(scoped, Device));
    if Distinct(days) then
      DailySeriesBound(scoped, days);
      report
    else report
  }

  /** The names of a breakdown's entries, in order. */
  function Names(groups: seq<GroupEntry>): (r: seq<string>)
    ensures |r| == |groups|
    ensures forall i :: 0 <= i < |groups| ==> r[i] == groups[i].name
  {
    if |groups| == 0 then [] else [groups[0].name] + Names(groups[1..])
  }

  /** A (value, link id) pair is in the column exactly when some event
      carries it. */
  lemma {:induction false} PairKeysOfMembers(evs: seq<Event>, dim: Dimension)
    ensures forall e :: e in evs ==> (Key(e, dim), e.urlId) in PairKeys(evs, dim)
    ensures forall p :: p in PairKeys(evs, dim) ==> exists e :: e in evs && p == (Key(e, dim), e.urlId)
  {
    if |evs| > 0 {
      PairKeysOfMembers(evs[1..], dim);
      assert forall e :: e in evs ==> e == evs[0] || e in evs[1..];
    }
  }

  /** In the overall breakdown a value is listed once per link: the entries
      named `name` are as many as the distinct links having an event with
      that value. A per-link breakdown lists each value once instead. */
  lemma OverallEntriesPerLink(scoped: seq<Event>, dim: Dimension, name: string)
    ensures Occurrences(Names(PairGroups(scoped, dim)), name)
            == |set e | e in scoped && Key(e, dim) == name :: e.urlId|
  {
    var pairs := Dedup(PairKeys(scoped, dim));
    NamesOfPairGroups(scoped, dim);
    FirstsCount(pairs, name);
    LinksOfPairs(scoped, dim, name);
  }

  lemma NamesOfPairGroups(scoped: seq<Event>, dim: Dimension)
    ensures Names(PairGroups(scoped, dim)) == Firsts(Dedup(PairKeys(scoped, dim)))
  {
    var r := PairGroups(scoped, dim);
    var pairs := Dedup(PairKeys(scoped, dim));
    assert |Names(r)| == |Firsts(pairs)|;
    forall i | 0 <= i < |r|
      ensures Names(r)[i] == Firsts(pairs)[i]
    {
    }
  }

  /** The link ids paired with a value among the distinct pairs are the
      links of the events holding that value. */
  lemma LinksOfPairs(scoped: seq<Event>, dim: Dimension, name: string)
    ensures PartnersOf(Dedup(PairKeys(scoped, dim)), name)
            == set e | e in scoped && Key(e, dim) == name :: e.urlId
  {
    var pairs := Dedup(PairKeys(scoped, dim));
    DedupMembers(PairKeys(scoped, dim));
    PairKeysOfMembers(scoped, dim);
    var viaPairs := PartnersOf(pairs, name);
    var viaEvents := set e | e in scoped && Key(e, dim) == name :: e.urlId;
    forall x | x in viaPairs
      ensures x in viaEvents
    {
      var p :| p in pairs && p.0 == name && p.1 == x;
      var e :| e in scoped && p == (Key(e, dim), e.urlId);
    }
    forall x | x in viaEvents
      ensures x in viaPairs
    {
      var e :| e in scoped && Key(e, dim) == name && e.urlId == x;
      assert (Key(e, dim), e.urlId) in pairs;
    }
  }
}

=== FILE: analytics_routes.dfy ===
/** The analytics router: `/overall`, `/topic/:topic` and `/:alias`, tried in
    that order; the per-link report is cached for an hour under
    `analytics:<alias>`. The cache is a map with expiry instants; the JSON
    text encoding is a pair of parameter functions. */
module AnalyticsRoutes {
  import opened Results
  import opened Errors
  import opened AnalyticsRepo
  import opened AnalyticsService
  import UrlRepo
  import UserStore
  import Authorize
  import Text

  /** A cached value and the instant (milliseconds) it expires. */
  datatype CacheEntry = CacheEntry(value: string, expiresAt: int)

  type Cache = map<string, CacheEntry>

  /** `EX: 3600`, in milliseconds. */
  const CACHE_TTL_MS: int := 3600 * 1000

  /** The cache key of an alias. */
  function CacheKey(alias: string): string {
    "analytics:" + alias
  }

  /** `redisClient.get(key)`: the value while it has not expired. */
  function CacheGet(cache: Cache, key: string, now: int): (r: Option<string>)
    ensures r.Some? <==> key in cache && now < cache[key].expiresAt
    ensures r.Some? ==> r.value == cache[key].value
  {
    if key in cache && now < cache[key].expiresAt then Some(cache[key].value) else None
  }

  /** What a request left behind: the cache, the reply, and whether the
      report was computed (as opposed to served from the cache). */
  datatype Served = Served(cache: Cache, reply: Reply<UrlReport>, computed: bool)

  /** `GET /:alias`. A non-empty cached text is parsed and returned as is
      (`decode` yields None where `JSON.parse` throws). Otherwise the report
      is computed; on success it is stored for an hour and returned, on
      failure the error is forwarded and nothing is stored. */
  function AliasAnalytics(cache: Cache, urls: UrlRepo.UrlTable, evs: seq<Event>, alias: string,
                          days: seq<int>, now: int,
                          encode: UrlReport -> string, decode: string -> Option<UrlReport>)
    : (r: Served)
    ensures var hit := CacheGet(cache, CacheKey(alias), now);
      hit.Some? && hit.value != "" ==>
        && r.cache == cache && !r.computed
        && r.reply == (if decode(hit.value).Some? then Send(decode(hit.value).value)
                       else Forward(SyntaxError))
    ensures var hit := CacheGet(cache, CacheKey(alias), now);
      (hit.None? || hit.value == "") ==>
        && r.computed
        && match GetAnalyticsData(urls, evs, alias, days)
           case Ok(report) =>
             r.reply == Send(report)
             && r.cache == cache[CacheKey(alias) := CacheEntry(encode(report), now + CACHE_TTL_MS)]
           case Err(f) => r.reply == Forward(f) && r.cache == cache
  {
    var key := CacheKey(alias);
    var hit := CacheGet(cache, key, now);
    if hit.Some? && hit.value != "" then
      match decode(hit.value)
      case Some(report) => Served(cache, Send(report), false)
      case None => Served(cache, Forward(SyntaxError), false)
    else
      match GetAnalyticsData(urls, evs, alias, days)
      case Err(f) => Served(cache, Forward(f), true)
      case Ok(report) =>
        Served(cache[key := CacheEntry(encode(report), now + CACHE_TTL_MS)], Send(report), true)
  }

  /** Within the hour after a report was computed on a cache miss, asking
      again for the same alias returns the same report without computing
      it, even if new visits were recorded meanwhile, provided the report's
      encoding is non-empty and decodes back to it. */
  lemma RepeatWithinHourServedFromCache(cache: Cache, urls: UrlRepo.UrlTable, evs: seq<Event>,
                                        evs2: seq<Event>, alias: string, days: seq<int>,
                                        t1: int, t2: int,
                                        encode: UrlReport -> string, decode: string -> Option<UrlReport>)
    requires t1 <= t2 < t1 + CACHE_TTL_MS
    requires var hit := CacheGet(cache, CacheKey(alias), t1); hit.None? || hit.value == ""
    ensures var data := GetAnalyticsData(urls, evs, alias, days);
      data.Ok? && decode(encode(data.value)) == Some(data.value) && encode(data.value) != "" ==>
        var first := AliasAnalytics(cache, urls, evs, alias, days, t1, encode, decode);
        var second := AliasAnalytics(first.cache, urls, evs2, alias, days, t2, encode, decode);
        && first.computed && first.reply == Send(data.value)
        && !second.computed && second.reply == first.reply && second.cache == first.cache
  {
    var key := CacheKey(alias);
    var first := AliasAnalytics(cache, urls, evs, alias, days, t1, encode, decode);
    var data := GetAnalyticsData(urls, evs, alias, days);
    if data.Ok? && decode(encode(data.value)) == Some(data.value) && encode(data.value) != "" {
      var report := data.value;
      assert first.reply == Send(report);
      assert first.cache == cache[key := CacheEntry(encode(report), t1 + CACHE_TTL_MS)];
      RepeatHit(cache, key, report, t1, t2, encode);
    }
  }

  /** A report stored at `t1` is still returned, as stored, at any `t2`
      within the hour. */
  lemma RepeatHit(cache: Cache, key: string, report: UrlReport, t1: int, t2: int,
                  encode: UrlReport -> string)
    requires t1 <= t2 < t1 + CACHE_TTL_MS
    ensures CacheGet(cache[key := CacheEntry(encode(report), t1 + CACHE_TTL_MS)], key, t2) == Some(encode(report))
  {
  }

  /** A failed request stores nothing, so the next one computes again. */
  lemma FailureIsNotCached(cache: Cache, urls: UrlRepo.UrlTable, evs: seq<Event>, alias: string,
                           days: seq<int>, t1: int, t2: int,
                           encode: UrlReport -> string, decode: string -> Option<UrlReport>)
    requires CacheKey(alias) !in cache
    requires AliasAnalytics(cache, urls, evs, alias, days, t1, encode, decode).reply.Fail?
    ensures var first := AliasAnalytics(cache, urls, evs, alias, days, t1, encode, decode);
      first.cache == cache && AliasAnalytics(first.cache, urls, evs, alias, days, t2, encode, decode).computed
  {
  }

  /** `GET /topic/:topic`; the report cannot fail in this model. */
  function TopicRoute(urls: UrlRepo.UrlTable, evs: seq<Event>, topic: string, days: seq<int>)
    : (r: Reply<TopicReport>)
    requires UrlRepo.Valid(urls)
    ensures r == Send(TopicAnalytics(urls, evs, topic, days))
    ensures r.Send? && r.body.totalClicks == TotalClicksByTopic(urls, evs, topic)
    ensures r.Send? && SumTotals(r.body.urls) == r.body.totalClicks
  {
    Send(TopicAnalytics(urls, evs, topic, days))
  }

  /** `GET /overall`: the subject id comes from `res.locals.user`, which only
      the authorisation gate sets; without it the destructuring throws a
      `TypeError` and the answer is 500. */
  function OverallRoute(urls: UrlRepo.UrlTable, users: UserStore.UserTable, evs: seq<Event>,
                        user: Option<Authorize.Payload>, days: seq<int>)
    : (r: Reply<OverallReport>)
    ensures user.None? ==> r.Fail? && r.status == 500 && r.failure.TypeError?
    ensures user.Some? && UserStore.FindBySub(users, user.value.sub).None? ==>
      r == Forward(INTERNAL_SERVER_ERROR)
    ensures user.Some? && UserStore.FindBySub(users, user.value.sub).Some? ==>
      r.Send? && r.body == OverallAnalyticsOfUser(urls, evs, UserStore.FindBySub(users, user.value.sub).value.id, days)
  {
    match user
    case None => Forward(TypeError("Cannot destructure property 'sub' of 'res.locals.user' as it is undefined."))
    case Some(payload) =>
      match OverallAnalytics(urls, users, evs, payload.sub, days)
      case Err(f) => Forward(f)
      case Ok(report) => Send(report)
  }

  /** Which handler a `GET` below the analytics prefix reaches, from its
      path segments. */
  datatype Handler = Overall | Topic(topic: string) | Alias(alias: string) | NoHandler

  /** Express tries the routes in declaration order; the router is
      case-insensitive by default, so the fixed segments `overall` and
      `topic` match in any letter case, while a parameter matches one
      non-empty segment and keeps its case. */
  function Dispatch(segments: seq<string>): (h: Handler)
    ensures h.Overall? <==> |segments| == 1 && Text.Lower(segments[0]) == "overall"
    ensures h.Topic? <==> |segments| == 2 && Text.Lower(segments[0]) == "topic" && segments[1] != ""
    ensures h.Alias? <==> |segments| == 1 && segments[0] != "" && Text.Lower(segments[0]) != "overall"
    ensures h.Topic? ==> h.topic == segments[1]
    ensures h.Alias? ==> h.alias == segments[0]
  {
    if |segments| == 1 && Text.Lower(segments[0]) == "overall" then Overall
    else if |segments| == 2 && Text.Lower(segments[0]) == "topic" && segments[1] != "" then Topic(segments[1])
    else if |segments| == 1 && segments[0] != "" then Alias(segments[0])
    else NoHandler
  }

  /** A link whose alias is "overall" in any letter case cannot have its
      analytics read: that path always reaches the overall report. */
  lemma AliasOverallShadowed(alias: string)
    requires Text.Lower(alias) == "overall"
    ensures Dispatch([alias]) == Overall
    ensures forall segments :: Dispatch(segments) != Alias(alias)
  {
  }

  /** The fixed segments ignore letter case: `/Overall` reaches the overall
      report and `/TOPIC/x` the report of topic "x". */
  lemma FixedSegmentsIgnoreCase(first: string, rest: seq<string>)
    ensures Text.Lower(first) == "overall" && rest == [] ==> Dispatch([first] + rest) == Overall
    ensures Text.Lower(first) == "topic" && |rest| == 1 && rest[0] != "" ==>
      Dispatch([first] + rest) == Topic(rest[0])
  {
    assert ([first] + rest)[0] == first;
    assert |rest| == 1 ==> ([first] + rest)[1] == rest[0];
  }
}

=== FILE: analytics_service.dfy ===
/** The analytics service: recording a visit and assembling the three
    reports. Every report failure, an unknown alias included, is rewritten
    into INTERNAL_SERVER_ERROR by the service's `catch` blocks. */
module AnalyticsService {
  import opened Results
  import opened Errors
  import opened Counting
  import opened AnalyticsRepo
  import UrlRepo
  import UserStore

  /** `createAnalytics(dto)`: the store either appends the event or fails
      with `fault` (a broken connection, a violated constraint), which is
      re-thrown unchanged. */
  function CreateAnalytics(t: EventTable, dto: NewEvent, now: int, fault: Option<Failure>)
    : (r: Result<(EventTable, Event), Failure>)
    requires Valid(t)
    ensures fault.Some? <==> r.Err?
    ensures fault.Some? ==> r.error == fault.value
    ensures r.Ok? ==> r.value == Create(t, dto, now)
    ensures r.Ok? ==> r.value.0 == t + [r.value.1] && r.value.1.urlId == dto.urlId && !r.value.1.deleted
  {
    match fault
    case Some(f) => Err(f)
    case None => Ok(Create(t, dto, now))
  }

  /** The per-link report of `getAnalyticsData`. */
  datatype UrlReport = UrlReport(
    totalClicks: nat,
    uniqueUsers: nat,
    clicksByDate: seq<DayCount>,
    osType: seq<GroupEntry>,
    deviceType: seq<GroupEntry>)

  /** The report for the link with id `urlId`. */
  function ReportFor(evs: seq<Event>, urlId: nat, days: seq<int>): (r: UrlReport)
    ensures r.totalClicks == TotalClicks(evs, urlId)
    ensures r.uniqueUsers == UniqueUsers(evs, urlId)
    ensures r.clicksByDate == ClickByDate(evs, urlId, days)
    ensures r.osType == OsTypeAnalytics(evs, urlId)
    ensures r.deviceType == DeviceTypeAnalytics(evs, urlId)
    ensures r.uniqueUsers <= r.totalClicks
    ensures |r.clicksByDate| == |days|
    ensures Distinct(days) ==> SumCounts(r.clicksByDate) <= r.totalClicks
    ensures SumClicks(r.osType) == r.totalClicks && SumClicks(r.deviceType) == r.totalClicks
  {
    UrlReport(TotalClicks(evs, urlId), UniqueUsers(evs, urlId), ClickByDate(evs, urlId, days),
              OsTypeAnalytics(evs, urlId), DeviceTypeAnalytics(evs, urlId))
  }

  /** `getAnalyticsData(alias)`: the report of the live link with that
      alias. The NOT_FOUND thrown for an unknown alias is caught by the
      function's own `catch` and replaced by INTERNAL_SERVER_ERROR, like any
      other failure, so the caller only sees a report or the generic error. */
  function GetAnalyticsData(urls: UrlRepo.UrlTable, evs: seq<Event>, alias: string, days: seq<int>)
    : (r: Result<UrlReport, Failure>)
    ensures r.Err? <==> forall i :: 0 <= i < |urls| ==> urls[i].deleted || urls[i].customAlias != Some(alias)
    ensures r.Err? ==> r.error == INTERNAL_SERVER_ERROR
    ensures r.Ok? ==> exists u :: u in urls && !u.deleted && u.customAlias == Some(alias)
                                 && r.value == ReportFor(evs, u.id, days)
  {
    match UrlRepo.GetOne(urls, UrlRepo.AliasFilter(alias))
    case None => Err(INTERNAL_SERVER_ERROR)
    case Some(url) => Ok(ReportFor(evs, url.id, days))
  }

  /** Asking for an unknown alias answers 500, the same as a failing store. */
  lemma UnknownAliasAnswers500(urls: UrlRepo.UrlTable, evs: seq<Event>, alias: string, days: seq<int>)
    requires forall i :: 0 <= i < |urls| ==> urls[i].deleted || urls[i].customAlias != Some(alias)
    ensures GetAnalyticsData(urls, evs, alias, days).Err?
    ensures StatusOf(GetAnalyticsData(urls, evs, alias, days).error) == 500
  {
  }

  /** The per-topic report of `topicAnalytics`. */
  datatype TopicReport = TopicReport(
    totalClicks: nat,
    uniqueUsers: nat,
    clicksByDate: seq<DayCount>,
    urls: seq<UrlStat>)

  /** `topicAnalytics(topic)`: a topic without links is an all-zero report,
      not an error; the per-link rows add up to the total. */
  function TopicAnalytics(urls: UrlRepo.UrlTable, evs: seq<Event>, topic: string, days: seq<int>)
    : (r: TopicReport)
    requires UrlRepo.Valid(urls)
    ensures r.totalClicks == TotalClicksByTopic(urls, evs, topic)
    ensures r.uniqueUsers == UniqueUsersByTopic(urls, evs, topic)
    ensures r.clicksByDate == ClicksByDateForTopic(urls, evs, topic, days)
    ensures r.urls == UrlsByTopic(urls, evs, topic)
    ensures r.uniqueUsers <= r.totalClicks
    ensures |r.clicksByDate| == |days|
    ensures Distinct(days) ==> SumCounts(r.clicksByDate) <= r.totalClicks
    ensures |r.urls| == |TopicUrls(urls, topic)|
    ensures SumTotals(r.urls) == r.totalClicks
  {
    UrlsByTopicAddsUp(urls, evs, topic);
    TopicReport(TotalClicksByTopic(urls, evs, topic), UniqueUsersByTopic(urls, evs, topic),
                ClicksByDateForTopic(urls, evs, topic, days), UrlsByTopic(urls, evs, topic))
  }

  /** `overallAnalytics(sub)`: the report of the user with that subject id.
      For an unknown subject the id is `undefined`, the store refuses the
      query, and the `catch` answers INTERNAL_SERVER_ERROR. */
  function OverallAnalytics(urls: UrlRepo.UrlTable, users: UserStore.UserTable, evs: seq<Event>,
                            sub: string, days: seq<int>)
    : (r: Result<OverallReport, Failure>)
    ensures r.Err? <==> UserStore.FindBySub(users, sub).None?
    ensures r.Err? ==> r.error == INTERNAL_SERVER_ERROR
    ensures r.Ok? ==> r.value == OverallAnalyticsOfUser(urls, evs, UserStore.FindBySub(users, sub).value.id, days)
    ensures r.Ok? ==> r.value.totalUrls == |OwnedUrls(urls, UserStore.FindBySub(users, sub).value.id)|
    ensures r.Ok? ==> r.value.uniqueUsers <= r.value.totalClicks
    ensures r.Ok? ==> SumClicks(r.value.osType) == r.value.totalClicks
  {
    match UserStore.FindBySub(users, sub)
    case None => Err(INTERNAL_SERVER_ERROR)
    case Some(user) => Ok(OverallAnalyticsOfUser(urls, evs, user.id, days))
  }

  /** A user's overall report counts only that user's links: another user's
      visits leave it unchanged. */
  lemma OverallIgnoresOtherUsersLinks(urls: UrlRepo.UrlTable, evs: seq<Event>, userId: nat, e: Event,
                                      days: seq<int>)
    requires forall u :: u in urls && u.id == e.urlId ==> u.userId != userId
    ensures OverallAnalyticsOfUser(urls, evs + [e], userId, days).totalClicks
            == OverallAnalyticsOfUser(urls, evs, userId, days).totalClicks
  {
    var owned := OwnedUrls(urls, userId);
    var ids := Elements(Ids(owned));
    forall i | 0 <= i < |owned|
      ensures Ids(owned)[i] != e.urlId
    {
      assert owned[i] in owned;
    }
    ScopeAppend(evs, e, ids);
  }

  /** Appending an event outside the id set leaves the scope as it was. */
  lemma {:induction false} ScopeAppend(evs: seq<Event>, e: Event, ids: set<nat>)
    requires e.urlId !in ids
    ensures Scope(evs + [e], ids) == Scope(evs, ids)
  {
    if |evs| == 0 {
      assert Scope([e][1..], ids) == [];
    } else {
      assert (evs + [e])[1..] == evs[1..] + [e];
      ScopeAppend(evs[1..], e, ids);
    }
  }
}

=== FILE: auth_service.dfy ===
/** Login: verify the identity token, then reuse the user with the verified
    email or create one. The identity provider's answer is a parameter. */
module AuthService {
  import opened Results
  import opened Errors
  import opened UserStore
  import opened Authorize

  /** `{ id, token }` returned to the client. */
  datatype LoginResult = LoginResult(id: nat, token: string)

  /** The login as the repository writes it: a new user is created from the
      email alone, without the subject id the users table requires. */
  function LoginAsWritten(users: UserTable, idToken: string, verification: Result<Payload, Failure>)
    : (r: Result<(UserTable, LoginResult), Failure>)
    requires Valid(users)
    ensures verification.Err? ==> r == Err(verification.error)
    ensures verification.Ok? && FindByEmail(users, verification.value.email).Some? ==>
      r == Ok((users, LoginResult(FindByEmail(users, verification.value.email).value.id, idToken)))
    ensures verification.Ok? && FindByEmail(users, verification.value.email).None? ==>
      r == Err(NotNullViolation("sub"))
    ensures r.Ok? ==> r.value.0 == users
  {
    match verification
    case Err(f) => Err(f)
    case Ok(payload) =>
      match FindByEmail(users, payload.email)
      case Some(u) => Ok((users, LoginResult(u.id, idToken)))
      case None =>
        match CreateUser(users, payload.email, None)
        case Err(f) => Err(f)
        case Ok((users', u)) => Ok((users', LoginResult(u.id, idToken)))
  }

  /** As written, a first login can never succeed: the insert omits `sub`
      and is refused by its not-null constraint. */
  lemma FirstLoginAsWrittenFails(users: UserTable, idToken: string, payload: Payload)
    requires Valid(users)
    requires forall i :: 0 <= i < |users| ==> users[i].email != payload.email
    ensures LoginAsWritten(users, idToken, Ok(payload)) == Err(NotNullViolation("sub"))
  {
  }

  /** The login with the subject id stored alongside the email, so that the
      user can later be found by `sub`. */
  function Login(users: UserTable, idToken: string, verification: Result<Payload, Failure>)
    : (r: Result<(UserTable, LoginResult), Failure>)
    requires Valid(users)
    ensures verification.Err? ==> r == Err(verification.error)
    ensures verification.Ok? && FindByEmail(users, verification.value.email).Some? ==>
      r == Ok((users, LoginResult(FindByEmail(users, verification.value.email).value.id, idToken)))
    ensures verification.Ok? && FindByEmail(users, verification.value.email).None?
            && FindBySub(users, verification.value.sub).None? ==>
      r.Ok? && r.value.0 == users + [User(|users| + 1, verification.value.email, Some(verification.value.sub))]
      && r.value.1 == LoginResult(|users| + 1, idToken)
    ensures r.Ok? ==> Valid(r.value.0) && r.value.1.token == idToken
    ensures r.Ok? ==> |r.value.0| <= |users| + 1
    ensures r.Ok? ==> FindByEmail(r.value.0, verification.value.email).Some?
  {
    match verification
    case Err(f) => Err(f)
    case Ok(payload) =>
      match FindByEmail(users, payload.email)
      case Some(u) => Ok((users, LoginResult(u.id, idToken)))
      case None =>
        match CreateUser(users, payload.email, Some(payload.sub))
        case Err(f) => Err(f)
        case Ok((users', u)) =>
          assert users'[|users|] == u;
          Ok((users', LoginResult(u.id, idToken)))
  }

  /** Two logins with the same verified email create at most one user. */
  lemma RepeatedLoginCreatesAtMostOneUser(users: UserTable, token1: string, token2: string,
                                          p1: Payload, p2: Payload)
    requires Valid(users)
    requires p1.email == p2.email
    requires Login(users, token1, Ok(p1)).Ok?
    ensures Login(Login(users, token1, Ok(p1)).value.0, token2, Ok(p2)).Ok?
    ensures |Login(Login(users, token1, Ok(p1)).value.0, token2, Ok(p2)).value.0| <= |users| + 1
    ensures Login(Login(users, token1, Ok(p1)).value.0, token2, Ok(p2)).value.0
            == Login(users, token1, Ok(p1)).value.0
    ensures Login(users, token1, Ok(p1)).value.1.id
            == Login(Login(users, token1, Ok(p1)).value.0, token2, Ok(p2)).value.1.id
  {
    var first := Login(users, token1, Ok(p1)).value;
    var users1 := first.0;
    assert FindByEmail(users1, p2.email).Some?;
    if FindByEmail(users, p1.email).None? {
      FindByEmailAppended(users, users1[|users|], p1.email);
    }
  }

  /** A lookup in a table extended by one user whose email did not occur
      before finds that user. */
  lemma {:induction false} FindByEmailAppended(users: UserTable, u: User, email: string)
    requires forall i :: 0 <= i < |users| ==> users[i].email != email
    requires u.email == email
    ensures FindByEmail(users + [u], email) == Some(u)
  {
    if |users| > 0 {
      assert (users + [u])[1..] == users[1..] + [u];
      FindByEmailAppended(users[1..], u, email);
    }
  }
}

=== FILE: authorize.dfy ===
/** The authorisation gate: requests matching an excluded path pass
    untouched; every other request must carry a credential the identity
    provider verifies. The provider's answer is a parameter. */
module Authorize {
  import opened Results
  import opened Text
  import opened Errors

  /** What the identity provider vouches for. */
  datatype Payload = Payload(sub: string, email: string)

  /** One entry of the exclusion list. */
  datatype ExcludedPath = ExcludedPath(path: string, httpMethod: string)

  /** The exclusion list: login, health check, API docs, OAuth callback and
      the favicon route, all for GET. The favicon route's text is defined
      outside this model and is a parameter. */
  function ExcludedPaths(faviconRoute: string): (ps: seq<ExcludedPath>)
    ensures |ps| == 5
    ensures forall i :: 0 <= i < |ps| ==> ps[i].httpMethod == "GET"
  {
    [ ExcludedPath("/auth" + "/login", "GET"),
      ExcludedPath("/healthCheck", "GET"),
      ExcludedPath("/api-docs", "GET"),
      ExcludedPath("/auth" + "/oauth2callback", "GET"),
      ExcludedPath(faviconRoute, "GET") ]
  }

  /** An entry matches when its path occurs anywhere in the request URL and
      its method occurs anywhere in the request method. */
  predicate Matches(e: ExcludedPath, url: string, httpMethod: string) {
    Contains(url, e.path) && Contains(httpMethod, e.httpMethod)
  }

  /** The request is exempt from authentication. */
  predicate IsExempt(paths: seq<ExcludedPath>, url: string, httpMethod: string) {
    exists i :: 0 <= i < |paths| && Matches(paths[i], url, httpMethod)
  }

  /** `excludedPaths.find(...)`: the first matching entry, if any. */
  function FindExcluded(paths: seq<ExcludedPath>, url: string, httpMethod: string): (r: Option<ExcludedPath>)
    ensures r.Some? ==> r.value in paths && Matches(r.value, url, httpMethod)
    ensures r.Some? <==> IsExempt(paths, url, httpMethod)
  {
    if |paths| == 0 then None
    else if Matches(paths[0], url, httpMethod) then Some(paths[0])
    else
      var r := FindExcluded(paths[1..], url, httpMethod);
      assert IsExempt(paths, url, httpMethod) ==> IsExempt(paths[1..], url, httpMethod) by {
        if IsExempt(paths, url, httpMethod) {
          var i :| 0 <= i < |paths| && Matches(paths[i], url, httpMethod);
          assert i != 0;
          assert paths[1..][i - 1] == paths[i];
        }
      }
      r
  }

  /** What the gate leaves behind: the error passed to `next` (none means
      the request proceeds), the user stored in `res.locals.user`, and how
      many times the identity provider was consulted. */
  datatype GateResult = GateResult(nextError: Option<Failure>, user: Option<Payload>, verifierCalls: nat)

  /** `authorize(excludedPaths)(req, res, next)`, with `verification` the
      provider's answer for the request's credential. */
  function Authorize(paths: seq<ExcludedPath>, url: string, httpMethod: string,
                     verification: Result<Payload, Failure>): (g: GateResult)
    ensures IsExempt(paths, url, httpMethod) ==> g.nextError.None? && g.user.None? && g.verifierCalls == 0
    ensures !IsExempt(paths, url, httpMethod) ==> g.verifierCalls == 1
    ensures !IsExempt(paths, url, httpMethod) && verification.Ok? ==>
      g.nextError.None? && g.user == Some(verification.value)
    ensures !IsExempt(paths, url, httpMethod) && verification.Err? ==>
      g.nextError == Some(UNAUTHORIZED) && g.user.None?
  {
    if FindExcluded(paths, url, httpMethod).Some? then GateResult(None, None, 0)
    else
      match verification
      case Ok(payload) => GateResult(None, Some(payload), 1)
      case Err(_) => GateResult(Some(UNAUTHORIZED), None, 1)
  }

  /** Every excluded entry is a GET, so no POST, PUT, PATCH or DELETE request
      is ever exempt, whatever its URL (creating a short link included). */
  lemma NonGetNeverExempt(faviconRoute: string, url: string, httpMethod: string)
    requires httpMethod in {"POST", "PUT", "PATCH", "DELETE"}
    ensures !IsExempt(ExcludedPaths(faviconRoute), url, httpMethod)
  {
    var ps := ExcludedPaths(faviconRoute);
    if IsExempt(ps, url, httpMethod) {
      var i :| 0 <= i < |ps| && Matches(ps[i], url, httpMethod);
      ContainsFirstChar(httpMethod, "GET");
      assert false;
    }
  }

  /** Matching is by substring, not by prefix: a GET whose URL mentions the
      health-check path anywhere is exempt, and the credential is never
      looked at. */
  lemma HealthCheckAnywhereIsExempt(faviconRoute: string, before: string, after: string,
                                     verification: Result<Payload, Failure>)
    ensures IsExempt(ExcludedPaths(faviconRoute), before + "/healthCheck" + after, "GET")
    ensures Authorize(ExcludedPaths(faviconRoute), before + "/healthCheck" + after, "GET", verification)
            == GateResult(None, None, 0)
  {
    var ps := ExcludedPaths(faviconRoute);
    ContainsInfix(before, "/healthCheck", after);
    ContainsInfix("", "GET", "");
    assert "" + "GET" + "" == "GET";
    assert Matches(ps[1], before + "/healthCheck" + after, "GET");
  }
}

=== FILE: counting.dfy ===
/** Counting over finite sequences: the `COUNT`, `COUNT(DISTINCT ...)` and
    `GROUP BY` arithmetic that the analytics queries rely on, stated once,
    generically. */
module Counting {

  /** The set of values occurring in `s`. */
  function Elements<K>(s: seq<K>): set<K> {
    set x | x in s
  }

  /** No value occurs twice in `s`. */
  predicate Distinct<K(==)>(s: seq<K>) {
    forall i, j :: 0 <= i < j < |s| ==> s[i] != s[j]
  }

  /** How many positions of `s` hold a value of `ks`. */
  function CountIn<K(==)>(s: seq<K>, ks: set<K>): (n: nat)
    ensures n <= |s|
  {
    if |s| == 0 then 0 else (if s[0] in ks then 1 else 0) + CountIn(s[1..], ks)
  }

  /** How many positions of `s` hold `k`. */
  function Occurrences<K(==)>(s: seq<K>, k: K): nat {
    CountIn(s, {k})
  }

  /** The occurrences in `s` of each value of `ds`, summed. */
  function SumOccurrences<K(==)>(ds: seq<K>, s: seq<K>): nat {
    if |ds| == 0 then 0 else Occurrences(s, ds[0]) + SumOccurrences(ds[1..], s)
  }

  /** The distinct values of `s`, each kept at its first occurrence. */
  function Dedup<K(==)>(s: seq<K>): (r: seq<K>)
    ensures Distinct(r)
    ensures Elements(r) == Elements(s)
    ensures |r| <= |s|
  {
    if |s| == 0 then []
    else
      var rest := Dedup(s[..|s| - 1]);
      assert Elements(s) == Elements(s[..|s| - 1]) + {s[|s| - 1]} by {
        assert s == s[..|s| - 1] + [s[|s| - 1]];
      }
      if s[|s| - 1] in rest then rest else rest + [s[|s| - 1]]
  }

  /** Deduplicating keeps exactly the values present. */
  lemma DedupMembers<K>(s: seq<K>)
    ensures forall x :: x in Dedup(s) <==> x in s
  {
    assert forall x :: x in Dedup(s) <==> x in Elements(Dedup(s));
    assert forall x :: x in s <==> x in Elements(s);
  }

  /** Counting against a set that holds every value of `s` counts all of `s`. */
  lemma {:induction false} CountInAll<K>(s: seq<K>, ks: set<K>)
    requires Elements(s) <= ks
    ensures CountIn(s, ks) == |s|
  {
    if |s| > 0 {
      assert s[0] in Elements(s);
      assert Elements(s[1..]) <= Elements(s) by {
        forall x | x in s[1..] ensures x in s { }
      }
      CountInAll(s[1..], ks);
    }
  }

  /** Counting against two disjoint sets adds up. */
  lemma {:induction false} CountInUnion<K>(s: seq<K>, a: set<K>, b: set<K>)
    requires a !! b
    ensures CountIn(s, a + b) == CountIn(s, a) + CountIn(s, b)
  {
    if |s| > 0 {
      CountInUnion(s[1..], a, b);
    }
  }

  /** Counting against a larger set counts at least as much. */
  lemma {:induction false} CountInMonotone<K>(s: seq<K>, a: set<K>, b: set<K>)
    requires a <= b
    ensures CountIn(s, a) <= CountIn(s, b)
  {
    if |s| > 0 {
      CountInMonotone(s[1..], a, b);
    }
  }

  /** Summing the per-value counts over distinct values is counting against
      the set of those values; this is why a `GROUP BY` partitions a count. */
  lemma {:induction false} SumOccurrencesIsCountIn<K>(ds: seq<K>, s: seq<K>)
    requires Distinct(ds)
    ensures SumOccurrences(ds, s) == CountIn(s, Elements(ds))
  {
    if |ds| == 0 {
      assert Elements(ds) == {};
      CountInEmpty(s);
    } else {
      var rest := ds[1..];
      assert Distinct(rest);
      SumOccurrencesIsCountIn(rest, s);
      assert ds[0] !in Elements(rest);
      assert Elements(ds) == {ds[0]} + Elements(rest) by {
        assert ds == [ds[0]] + rest;
      }
      CountInUnion(s, {ds[0]}, Elements(rest));
    }
  }

  /** Nothing is counted against the empty set. */
  lemma {:induction false} CountInEmpty<K>(s: seq<K>)
    ensures CountIn(s, {}) == 0
  {
    if |s| > 0 {
      CountInEmpty(s[1..]);
    }
  }

  /** A sequence has at least as many positions as distinct values. */
  lemma {:induction false} ElementsBound<K>(s: seq<K>)
    ensures |Elements(s)| <= |s|
  {
    if |s| > 0 {
      ElementsBound(s[1..]);
      assert Elements(s) == {s[0]} + Elements(s[1..]) by {
        assert s == [s[0]] + s[1..];
      }
    }
  }

  /** Counting distributes over concatenation. */
  lemma {:induction false} CountInAppend<K>(a: seq<K>, b: seq<K>, ks: set<K>)
    ensures CountIn(a + b, ks) == CountIn(a, ks) + CountIn(b, ks)
  {
    if |a| > 0 {
      assert (a + b)[0] == a[0];
      assert (a + b)[1..] == a[1..] + b;
      CountInAppend(a[1..], b, ks);
    } else {
      assert a + b == b;
    }
  }

  /** The first components of a sequence of pairs, in order. */
  function Firsts<A, B>(ps: seq<(A, B)>): (r: seq<A>)
    ensures |r| == |ps|
    ensures forall i :: 0 <= i < |ps| ==> r[i] == ps[i].0
  {
    if |ps| == 0 then [] else [ps[0].0] + Firsts(ps[1..])
  }

  /** The second components paired with `a`. */
  function PartnersOf<A(==), B(==)>(ps: seq<(A, B)>, a: A): set<B> {
    set p | p in ps && p.0 == a :: p.1
  }

  /** In a sequence of distinct pairs, a first component occurs once for each
      second component it is paired with. */
  lemma {:induction false} FirstsCount<A, B>(ps: seq<(A, B)>, a: A)
    requires Distinct(ps)
    ensures Occurrences(Firsts(ps), a) == |PartnersOf(ps, a)|
  {
    if |ps| > 0 {
      var rest := ps[1..];
      DistinctTail(ps);
      FirstsCount(rest, a);
      assert Firsts(ps)[1..] == Firsts(rest);
      PartnersOfCons(ps, a);
      if ps[0].0 == a {
        HeadPartnerFresh(ps);
      }
    }
  }

  lemma DistinctTail<K>(s: seq<K>)
    requires Distinct(s) && |s| > 0
    ensures Distinct(s[1..])
  {
    var rest := s[1..];
    forall i, j | 0 <= i < j < |rest|
      ensures rest[i] != rest[j]
    {
      assert rest[i] == s[i + 1] && rest[j] == s[j + 1];
    }
  }

  lemma PartnersOfCons<A, B>(ps: seq<(A, B)>, a: A)
    requires |ps| > 0
    ensures PartnersOf(ps, a) == (if ps[0].0 == a then {ps[0].1} else {}) + PartnersOf(ps[1..], a)
  {
    assert forall p :: p in ps <==> p == ps[0] || p in ps[1..];
  }

  /** The head of a distinct sequence of pairs does not recur in its tail. */
  lemma HeadPartnerFresh<A, B>(ps: seq<(A, B)>)
    requires Distinct(ps) && |ps| > 0
    ensures ps[0].1 !in PartnersOf(ps[1..], ps[0].0)
  {
    forall p | p in ps[1..] && p.0 == ps[0].0
      ensures p.1 != ps[0].1
    {
      var j :| 0 <= j < |ps[1..]| && ps[1..][j] == p;
      assert ps[j + 1] == p;
    }
  }
}

=== FILE: device_detection.dfy ===
/** Classification of a visit from its request headers: device type and
    operating system from the user-agent string, client address from the
    forwarding header. The geographic lookup is an opaque function. */
module DeviceDetection {
  import opened Results
  import opened Text

  /** `/mobile/i`, then `/tablet/i`, else desktop. */
  function DetectDeviceType(userAgent: string): (r: string)
    ensures r == "Mobile" || r == "Tablet" || r == "Desktop"
    ensures r == "Mobile" <==> ContainsIgnoreCase(userAgent, "mobile")
    ensures r == "Tablet" <==>
      !ContainsIgnoreCase(userAgent, "mobile") && ContainsIgnoreCase(userAgent, "tablet")
  {
    if ContainsIgnoreCase(userAgent, "mobile") then "Mobile"
    else if ContainsIgnoreCase(userAgent, "tablet") then "Tablet"
    else "Desktop"
  }

  /** `/windows/i`, `/mac/i`, `/linux/i`, `/android/i`, `/ios/i`, tried in
      that order; the first that matches names the system, else "Unknown". */
  function DetectOsName(userAgent: string): (r: string)
    ensures r in {"Windows", "MacOS", "Linux", "Android", "iOS", "Unknown"}
    ensures r == "Windows" <==> ContainsIgnoreCase(userAgent, "windows")
    ensures r == "MacOS" <==>
      !ContainsIgnoreCase(userAgent, "windows") && ContainsIgnoreCase(userAgent, "mac")
    ensures r == "Linux" <==>
      !ContainsIgnoreCase(userAgent, "windows") && !ContainsIgnoreCase(userAgent, "mac")
      && ContainsIgnoreCase(userAgent, "linux")
    ensures r == "Android" <==>
      !ContainsIgnoreCase(userAgent, "windows") && !ContainsIgnoreCase(userAgent, "mac")
      && !ContainsIgnoreCase(userAgent, "linux") && ContainsIgnoreCase(userAgent, "android")
    ensures r == "Unknown" <==>
      !ContainsIgnoreCase(userAgent, "windows") && !ContainsIgnoreCase(userAgent, "mac")
      && !ContainsIgnoreCase(userAgent, "linux") && !ContainsIgnoreCase(userAgent, "android")
      && !ContainsIgnoreCase(userAgent, "ios")
  {
    if ContainsIgnoreCase(userAgent, "windows") then "Windows"
    else if ContainsIgnoreCase(userAgent, "mac") then "MacOS"
    else if ContainsIgnoreCase(userAgent, "linux") then "Linux"
    else if ContainsIgnoreCase(userAgent, "android") then "Android"
    else if ContainsIgnoreCase(userAgent, "ios") then "iOS"
    else "Unknown"
  }

  /** Both classifiers ignore ASCII letter case. */
  lemma ClassifiersIgnoreCase(a: string, b: string)
    requires |a| == |b|
    requires forall i :: 0 <= i < |a| ==> LowerChar(a[i]) == LowerChar(b[i])
    ensures DetectDeviceType(a) == DetectDeviceType(b)
    ensures DetectOsName(a) == DetectOsName(b)
  {
    LowerCaseBlind(a, b);
  }

  /** An agent naming both a mobile and a tablet is classified as mobile. */
  lemma MobileWinsOverTablet(userAgent: string)
    requires ContainsIgnoreCase(userAgent, "mobile") && ContainsIgnoreCase(userAgent, "tablet")
    ensures DetectDeviceType(userAgent) == "Mobile"
  {
  }

  /** The order of the tests decides mixed agents: "linux" beats "android"
      and "mac" beats "ios". */
  lemma OsPatternOrder(userAgent: string)
    ensures !ContainsIgnoreCase(userAgent, "windows") && !ContainsIgnoreCase(userAgent, "mac")
            && ContainsIgnoreCase(userAgent, "linux")
            ==> DetectOsName(userAgent) == "Linux"
    ensures !ContainsIgnoreCase(userAgent, "windows") && ContainsIgnoreCase(userAgent, "mac")
            ==> DetectOsName(userAgent) == "MacOS"
  {
  }

  /** The `x-forwarded-for` header as Node delivers it: absent, one string,
      or a list of strings (never empty). */
  datatype ForwardedFor = Absent | Single(value: string) | Multiple(first: string, rest: seq<string>)

  /** The loopback rewrite applied to the chosen address. */
  function NormalizeLoopback(ip: string): (r: string)
    ensures r != "::1"
    ensures ip != "::1" ==> r == ip
  {
    if ip == "::1" then "127.0.0.1" else ip
  }

  /** `getIpAddress`: a list header gives its first entry; a non-empty string
      header is taken whole (it is not split on commas); otherwise the peer
      address `req.ip` when non-empty, else "0.0.0.0"; then "::1" becomes
      "127.0.0.1". */
  function GetIpAddress(forwardedFor: ForwardedFor, peerIp: Option<string>): (r: string)
    ensures r != "::1"
    ensures forwardedFor.Multiple? ==> r == NormalizeLoopback(forwardedFor.first)
    ensures forwardedFor.Single? && forwardedFor.value != "" ==> r == NormalizeLoopback(forwardedFor.value)
    ensures (forwardedFor.Absent? || forwardedFor == Single("")) && peerIp.Some? && peerIp.value != ""
            ==> r == NormalizeLoopback(peerIp.value)
    ensures (forwardedFor.Absent? || forwardedFor == Single("")) && (peerIp.None? || peerIp == Some(""))
            ==> r == "0.0.0.0"
  {
    var ip :=
      match forwardedFor
      case Multiple(first, _) => first
      case Single(v) =>
        if v != "" then v
        else if peerIp.Some? && peerIp.value != "" then peerIp.value
        else "0.0.0.0"
      case Absent =>
        if peerIp.Some? && peerIp.value != "" then peerIp.value
        else "0.0.0.0";
    NormalizeLoopback(ip)
  }

  /** A comma-separated forwarding chain, given as one header string, is
      stored whole rather than split to its first hop, whatever the peer
      address. */
  lemma ForwardedChainNotSplit(chain: string, peerIp: Option<string>)
    requires Contains(chain, ",")
    ensures GetIpAddress(Single(chain), peerIp) == chain
    ensures Contains(GetIpAddress(Single(chain), peerIp), ",")
  {
    ContainsIff(chain, ",");
    var k: nat :| OccursAt(chain, ",", k);
    assert chain[k] == chain[k..k + 1][0] == ',';
    assert forall i :: 0 <= i < |"::1"| ==> "::1"[i] != ',';
  }
}

=== FILE: errors.dfy ===
/** The errors the service throws and the rule that turns any thrown value
    into an HTTP status code. */
module Errors {

  /** What can be thrown inside a handler:
      - `Handled`: a `MessageHandler`-like object carrying a status code and a message;
      - `TypeError`: a JavaScript `TypeError` (unparsable URL, property of `undefined`, ...);
      - `UniqueViolation` / `NotNullViolation`: rejections by the relational store;
      - `SyntaxError`: `JSON.parse` of a malformed cached value. */
  datatype Failure =
    | Handled(statusCode: int, message: string)
    | TypeError(description: string)
    | UniqueViolation(column: string)
    | NotNullViolation(column: string)
    | SyntaxError

  /** `ERROR_CODES.INTERNAL_SERVER`, also the fallback status. */
  const INTERNAL_SERVER: int := 500
  /** `ERROR_CODES.FORBIDDEN`. */
  const FORBIDDEN: int := 403
  /** `ERROR_CODES.NOT_FOUND`. */
  const NOT_FOUND: int := 404

  /** `URL_CONSTANTS` */
  const ALREADY_EXIST: Failure := Handled(400, "SHORT URL ALREADY EXISTS FOR THIS LONG URL")
  const MISSING_LONG_URL: Failure := Handled(400, "LONG URL IS REQUIRED")
  const INVALID_URL_FORMAT: Failure := Handled(400, "INVALID LONG URL FORMAT")
  const URL_NOT_FOUND: Failure := Handled(NOT_FOUND, "URL NOT FOUND")

  /** `ANALYTICS_CONSTANTS.INTERNAL_SERVER_ERROR` */
  const INTERNAL_SERVER_ERROR: Failure := Handled(INTERNAL_SERVER, "INTERNAL SERVER ERROR")

  /** What the authorisation gate forwards when verification fails. */
  const UNAUTHORIZED: Failure := Handled(FORBIDDEN, "UNAUTHORIZED")

  /** The user module's not-found error (its message text is an assumption). */
  const USER_NOT_FOUND: Failure := Handled(NOT_FOUND, "USER NOT FOUND")

  /** The error-handling middleware answers with `err.statusCode || 500`:
      a carried non-zero status code is used as is, anything else is a 500. */
  function StatusOf(f: Failure): (code: int)
    ensures code != 0
    ensures f.Handled? && f.statusCode != 0 ==> code == f.statusCode
    ensures !f.Handled? ==> code == INTERNAL_SERVER
    ensures f.Handled? && f.statusCode == 0 ==> code == INTERNAL_SERVER
  {
    if f.Handled? && f.statusCode != 0 then f.statusCode else INTERNAL_SERVER
  }

  /** The error constants reach the client with their own status codes, and
      store or runtime errors reach it as 500. */
  lemma StatusCodesOfConstants()
    ensures StatusOf(ALREADY_EXIST) == 400 && StatusOf(MISSING_LONG_URL) == 400
    ensures StatusOf(INVALID_URL_FORMAT) == 400 && StatusOf(URL_NOT_FOUND) == 404
    ensures StatusOf(INTERNAL_SERVER_ERROR) == 500 && StatusOf(UNAUTHORIZED) == 403
    ensures forall c :: StatusOf(UniqueViolation(c)) == 500
    ensures forall d :: StatusOf(TypeError(d)) == 500
  {
  }

  /** A 500 is answered exactly for errors carrying no code, a zero code or
      500 itself; any other answer is the carried code of a handled error. */
  lemma InternalServerIff(f: Failure)
    ensures StatusOf(f) == INTERNAL_SERVER <==> !f.Handled? || f.statusCode == 0 || f.statusCode == INTERNAL_SERVER
    ensures StatusOf(f) != INTERNAL_SERVER ==> f.Handled? && f.statusCode == StatusOf(f)
  {
  }

  /** What a handler finally answers: a JSON body, a redirect, an error
      through the error-handling middleware, or the limiter's refusal. */
  datatype Reply<+T> =
    | Send(body: T)
    | RedirectTo(location: string)
    | Fail(status: int, failure: Failure)
    | Throttled(status: int, message: string)

  /** `next(error)`: the error reaches the client with `StatusOf`. */
  function Forward<T>(f: Failure): (r: Reply<T>)
    ensures r.Fail? && r.failure == f
    ensures r.status == StatusOf(f) && r.status != 0
  {
    Fail(StatusOf(f), f)
  }
}

=== FILE: rate_limit.dfy ===
/** The limiter in front of link creation: per client, a window of 15
    minutes opened by the client's first request; every request in the
    window is counted, and those beyond the third are refused with 429. */
module RateLimit {

  const WINDOW_MS: int := 15 * 60 * 1000
  const LIMIT: nat := 3
  const TOO_MANY_STATUS: int := 429
  const TOO_MANY_MESSAGE: string := "Too many requests, please try again later"

  /** A client's current window: when it opened and how many hits it holds. */
  datatype Window = Window(start: int, hits: nat)

  /** Windows per client key. */
  type Limiter = map<string, Window>

  /** The hit opens a new window: the client has none, or its window has run out. */
  predicate OpensWindow(l: Limiter, client: string, now: int) {
    client !in l || now >= l[client].start + WINDOW_MS
  }

  /** Count one request of `client` at time `now` and decide whether it may
      proceed. */
  function Hit(l: Limiter, client: string, now: int): (r: (Limiter, bool))
    ensures client in r.0
    ensures OpensWindow(l, client, now) ==> r.0[client] == Window(now, 1) && r.1
    ensures !OpensWindow(l, client, now) ==>
      r.0[client] == Window(l[client].start, l[client].hits + 1) && (r.1 <==> l[client].hits + 1 <= LIMIT)
    ensures forall c :: c in l && c != client ==> c in r.0 && r.0[c] == l[c]
    ensures forall c :: c in r.0 ==> c in l || c == client
  {
    var w := if OpensWindow(l, client, now) then Window(now, 1)
             else Window(l[client].start, l[client].hits + 1);
    (l[client := w], w.hits <= LIMIT)
  }

  /** Feed a client's requests at the given times through the limiter;
      the decisions, in order. */
  function HitAll(l: Limiter, client: string, times: seq<int>): (r: (Limiter, seq<bool>))
    ensures |r.1| == |times|
    decreases |times|
  {
    if |times| == 0 then (l, [])
    else
      var first := Hit(l, client, times[0]);
      var rest := HitAll(first.0, client, times[1..]);
      (rest.0, [first.1] + rest.1)
  }

  /** Number of accepted requests among decisions. */
  function Accepted(oks: seq<bool>): nat {
    if |oks| == 0 then 0 else (if oks[0] then 1 else 0) + Accepted(oks[1..])
  }

  /** Within one window, a client gets at most three requests through, however
      many it sends; the window's hit count grows by one per request. */
  lemma {:induction false} AtMostLimitPerWindow(l: Limiter, client: string, times: seq<int>)
    requires client in l
    requires forall i :: 0 <= i < |times| ==> times[i] < l[client].start + WINDOW_MS
    ensures var r := HitAll(l, client, times);
      && client in r.0 && r.0[client] == Window(l[client].start, l[client].hits + |times|)
      && Accepted(r.1) <= (if l[client].hits >= LIMIT then 0 else LIMIT - l[client].hits)
    decreases |times|
  {
    if |times| > 0 {
      AtMostLimitPerWindow(Hit(l, client, times[0]).0, client, times[1..]);
    }
  }

  /** From a fresh start, three requests within 15 minutes pass and the
      fourth in the same window is refused. */
  lemma FourthRequestRefused(client: string, t0: int, t1: int, t2: int, t3: int)
    requires t0 <= t1 <= t2 <= t3 < t0 + WINDOW_MS
    ensures HitAll(map[], client, [t0, t1, t2, t3]).1 == [true, true, true, false]
  {
    var h1 := Hit(map[], client, t0);
    var h2 := Hit(h1.0, client, t1);
    var h3 := Hit(h2.0, client, t2);
    var h4 := Hit(h3.0, client, t3);
    assert h1.1 && h2.1 && h3.1 && !h4.1;
    assert [t3][1..] == [];
    assert HitAll(h3.0, client, [t3]).1 == [h4.1];
    assert [t2, t3][1..] == [t3];
    assert HitAll(h2.0, client, [t2, t3]).1 == [h3.1, h4.1];
    assert [t1, t2, t3][1..] == [t2, t3];
    assert HitAll(h1.0, client, [t1, t2, t3]).1 == [h2.1, h3.1, h4.1];
    assert [t0, t1, t2, t3][1..] == [t1, t2, t3];
  }
}

=== FILE: reconnect.dfy ===
/** The cache client's reconnect strategy: given the number of retries so far
    and the cause of the last failure, either give up or wait a number of
    milliseconds. The random jitter is a parameter. */
module Reconnect {
  import opened Results

  /** Give up with an error, or retry after `delayMs` milliseconds. */
  datatype Decision = GiveUp(message: string) | RetryAfter(delayMs: int)

  const MAX_RETRIES: nat := 10
  const REFUSED_STEP_MS: int := 1000
  const REFUSED_CAP_MS: int := 3000
  const BACKOFF_UNIT_MS: int := 50
  const BACKOFF_CAP_MS: int := 2000
  /** `Math.floor(Math.random() * 200)` lies in [0, JITTER_RANGE). */
  const JITTER_RANGE: int := 200

  function Min(a: int, b: int): int {
    if a <= b then a else b
  }

  /** `Math.pow(2, n)` for the exponents that reach it (at most 10). */
  function Pow2(n: nat): (p: nat)
    ensures p >= 1
  {
    if n == 0 then 1 else 2 * Pow2(n - 1)
  }

  /** Delay after a refused connection: one more second per retry, capped. */
  function RefusedDelay(retries: nat): int {
    Min(retries * REFUSED_STEP_MS, REFUSED_CAP_MS)
  }

  /** Exponential delay before jitter: 50 ms doubled per retry, capped. */
  function BackoffBase(retries: nat): int {
    Min(Pow2(retries) * BACKOFF_UNIT_MS, BACKOFF_CAP_MS)
  }

  /** `reconnectStrategy(retries, cause)`, `causeCode` being `cause.code`
      when there is a cause, and `jitter` the random draw. */
  function ReconnectStrategy(retries: nat, causeCode: Option<string>, jitter: int): (d: Decision)
    requires 0 <= jitter < JITTER_RANGE
    ensures d.GiveUp? <==> retries > MAX_RETRIES
    ensures d.GiveUp? ==> d.message == "Max retries reached"
    ensures d.RetryAfter? && causeCode == Some("ECONNREFUSED") ==> 0 <= d.delayMs <= REFUSED_CAP_MS
    ensures d.RetryAfter? && causeCode != Some("ECONNREFUSED") ==> 50 <= d.delayMs <= 2199
    ensures d.RetryAfter? && causeCode == Some("ECONNREFUSED") ==> d.delayMs == RefusedDelay(retries)
    ensures d.RetryAfter? && causeCode != Some("ECONNREFUSED") ==> d.delayMs == BackoffBase(retries) + jitter
  {
    if retries > MAX_RETRIES then GiveUp("Max retries reached")
    else if causeCode == Some("ECONNREFUSED") then RetryAfter(RefusedDelay(retries))
    else RetryAfter(BackoffBase(retries) + jitter)
  }

  /** Powers of two grow with the exponent. */
  lemma {:induction false} Pow2Monotone(m: nat, n: nat)
    requires m <= n
    ensures Pow2(m) <= Pow2(n)
    decreases n
  {
    if m < n {
      Pow2Monotone(m, n - 1);
    }
  }

  /** The refused-connection delay never decreases and is capped from the
      third retry on. */
  lemma RefusedDelayShape(m: nat, n: nat)
    requires m <= n
    ensures RefusedDelay(m) <= RefusedDelay(n)
    ensures n >= 3 ==> RefusedDelay(n) == REFUSED_CAP_MS
    ensures n < 3 ==> RefusedDelay(n) == n * REFUSED_STEP_MS
  {
  }

  /** The default backoff never decreases, and reaches its cap of 2000 ms
      exactly from the sixth retry on. */
  lemma BackoffBaseShape(m: nat, n: nat)
    requires m <= n
    ensures BackoffBase(m) <= BackoffBase(n)
    ensures n >= 6 ==> BackoffBase(n) == BACKOFF_CAP_MS
    ensures n < 6 ==> BackoffBase(n) < BACKOFF_CAP_MS
  {
    Pow2Monotone(m, n);
    if n >= 6 {
      Pow2Monotone(6, n);
      assert Pow2(6) == 64;
    } else {
      Pow2Monotone(n, 5);
      assert Pow2(5) == 32;
    }
  }
}

=== FILE: results.dfy ===
/** Optional values and success-or-failure values, used in place of `null`
    and of thrown exceptions throughout the model. */
module Results {

  /** A value that may be absent (`null`/`undefined` in the service). */
  datatype Option<+T> = None | Some(value: T) {

    /** The value, or `default` when absent (the `??` operator). */
    function GetOr(default: T): T {
      match this
      case Some(v) => v
      case None => default
    }
  }

  /** Either a value or the error that the service would throw. */
  datatype Result<+T, +E> = Ok(value: T) | Err(error: E)
}

=== FILE: scenarios.dfy ===
/** Properties that span several operations: a created alias is what the
    redirect resolves, and every successful redirect is one more click in
    the link's analytics. */
module Scenarios {
  import opened Results
  import opened Errors
  import opened Counting
  import opened UrlRepo
  import opened UrlService
  import opened UrlRoutes
  import AnalyticsRepo
  import UserStore

  /** Every row carrying a non-empty alias has the short URL built from it,
      which is what `createUrl` stores. Since short URLs are unique, so are
      such aliases. */
  predicate AliasesBacked(urls: UrlTable, baseUrl: string) {
    forall i :: 0 <= i < |urls| && urls[i].customAlias.Some? && urls[i].customAlias.value != "" ==>
      urls[i].shortUrl == baseUrl + urls[i].customAlias.value
  }

  /** `createUrl` keeps aliases backed by their short URLs. */
  lemma CreateKeepsAliasesBacked(urls: UrlTable, users: UserStore.UserTable, req: CreateUrlRequest,
                                 parses: string -> bool, generated: string, baseUrl: string, now: int)
    requires Valid(urls) && IsGeneratedCode(generated) && AliasesBacked(urls, baseUrl)
    requires CreateUrl(urls, users, req, parses, generated, baseUrl, now).Ok?
    ensures AliasesBacked(CreateUrl(urls, users, req, parses, generated, baseUrl, now).value.0, baseUrl)
  {
  }

  /** After a link is created with a non-empty alias, a visit of that alias
      records one event for the new link and redirects to its long URL. */
  lemma CreateThenRedirect(urls: UrlTable, users: UserStore.UserTable, req: CreateUrlRequest,
                           parses: string -> bool, generated: string, baseUrl: string, now: int,
                           events: AnalyticsRepo.EventTable, visit: Visit, geo: string -> string, later: int)
    requires Valid(urls) && IsGeneratedCode(generated) && AliasesBacked(urls, baseUrl)
    requires AnalyticsRepo.Valid(events)
    requires req.customAlias.Some? && req.customAlias.value != ""
    requires CreateUrl(urls, users, req, parses, generated, baseUrl, now).Ok?
    ensures var urls' := CreateUrl(urls, users, req, parses, generated, baseUrl, now).value.0;
      var r := Redirect(urls', events, req.customAlias.value, visit, geo, later, None);
      && r.1 == RedirectTo(req.longUrl.value)
      && |r.0| == |events| + 1 && r.0[|events|].urlId == |urls| + 1
  {
    var alias := req.customAlias.value;
    var urls' := CreateUrl(urls, users, req, parses, generated, baseUrl, now).value.0;
    assert urls'[|urls|].shortUrl == baseUrl + alias;
    forall i | 0 <= i < |urls|
      ensures !Matches(urls'[i], AliasFilter(alias))
    {
      assert urls'[i] == urls[i];
      assert urls[i].shortUrl != baseUrl + alias;
    }
    assert Matches(urls'[|urls|], AliasFilter(alias));
    assert GetOne(urls', AliasFilter(alias)) == Some(urls'[|urls|]) by {
      GetOneLast(urls', AliasFilter(alias));
    }
  }

  /** When only the last row matches, the lookup returns it. */
  lemma {:induction false} GetOneLast(t: UrlTable, f: UrlFilter)
    requires |t| > 0 && !t[|t| - 1].deleted && Matches(t[|t| - 1], f)
    requires forall i :: 0 <= i < |t| - 1 ==> !Matches(t[i], f)
    ensures GetOne(t, f) == Some(t[|t| - 1])
  {
    if |t| > 1 {
      assert !Matches(t[0], f);
      GetOneLast(t[1..], f);
    }
  }

  /** Appending an event appends its link id when it is live. */
  lemma {:induction false} LiveUrlIdsAppend(evs: seq<AnalyticsRepo.Event>, e: AnalyticsRepo.Event)
    ensures AnalyticsRepo.LiveUrlIds(evs + [e]) ==
            AnalyticsRepo.LiveUrlIds(evs) + (if e.deleted then [] else [e.urlId])
  {
    if |evs| == 0 {
      assert evs + [e] == [e];
      assert [e][1..] == [];
    } else {
      assert (evs + [e])[1..] == evs[1..] + [e];
      LiveUrlIdsAppend(evs[1..], e);
    }
  }

  /** A successful redirect adds one click to the link it resolved and none
      to any other link. */
  lemma RedirectAddsOneClick(urls: UrlTable, events: AnalyticsRepo.EventTable, alias: string, visit: Visit,
                             geo: string -> string, now: int, other: nat)
    requires AnalyticsRepo.Valid(events)
    requires GetOne(urls, AliasFilter(alias)).Some?
    ensures var link := GetOne(urls, AliasFilter(alias)).value;
      var r := Redirect(urls, events, alias, visit, geo, now, None).0;
      && AnalyticsRepo.TotalClicks(r, link.id) == AnalyticsRepo.TotalClicks(events, link.id) + 1
      && (other != link.id ==> AnalyticsRepo.TotalClicks(r, other) == AnalyticsRepo.TotalClicks(events, other))
  {
    var link := GetOne(urls, AliasFilter(alias)).value;
    var r := Redirect(urls, events, alias, visit, geo, now, None).0;
    var e := r[|events|];
    assert r == events + [e];
    LiveUrlIdsAppend(events, e);
    CountInAppend(AnalyticsRepo.LiveUrlIds(events), [link.id], {link.id});
    CountInAppend(AnalyticsRepo.LiveUrlIds(events), [link.id], {other});
    assert [link.id][1..] == [];
  }

  /** A run of visits of one alias, none of whose recordings fails. */
  function RedirectMany(urls: UrlTable, events: AnalyticsRepo.EventTable, alias: string, visits: seq<Visit>,
                        geo: string -> string, now: int)
    : (r: AnalyticsRepo.EventTable)
    requires AnalyticsRepo.Valid(events)
    ensures AnalyticsRepo.Valid(r)
    decreases |visits|
  {
    if |visits| == 0 then events
    else RedirectMany(urls, Redirect(urls, events, alias, visits[0], geo, now, None).0, alias, visits[1..], geo, now)
  }

  /** n visits of a known alias are n more clicks for its link; visits of an
      unknown alias record nothing. */
  lemma {:induction false} ManyRedirectsManyClicks(urls: UrlTable, events: AnalyticsRepo.EventTable, alias: string,
                                                   visits: seq<Visit>, geo: string -> string, now: int)
    requires AnalyticsRepo.Valid(events)
    ensures GetOne(urls, AliasFilter(alias)).Some? ==>
      var id := GetOne(urls, AliasFilter(alias)).value.id;
      AnalyticsRepo.TotalClicks(RedirectMany(urls, events, alias, visits, geo, now), id)
        == AnalyticsRepo.TotalClicks(events, id) + |visits|
    ensures GetOne(urls, AliasFilter(alias)).None? ==> RedirectMany(urls, events, alias, visits, geo, now) == events
    decreases |visits|
  {
    if |visits| > 0 {
      var next := Redirect(urls, events, alias, visits[0], geo, now, None).0;
      if GetOne(urls, AliasFilter(alias)).Some? {
        RedirectAddsOneClick(urls, events, alias, visits[0], geo, now, 0);
      }
      ManyRedirectsManyClicks(urls, next, alias, visits[1..], geo, now);
    }
  }

  /** A run of creations, each with its own generated code and instant. */
  function CreateMany(urls: UrlTable, users: UserStore.UserTable, reqs: seq<CreateUrlRequest>,
                      parses: string -> bool, codes: seq<string>, baseUrl: string, now: int)
    : (r: UrlTable)
    requires Valid(urls) && |codes| == |reqs|
    requires forall i :: 0 <= i < |codes| ==> IsGeneratedCode(codes[i])
    ensures Valid(r)
    decreases |reqs|
  {
    if |reqs| == 0 then urls
    else
      var step := CreateUrl(urls, users, reqs[0], parses, codes[0], baseUrl, now);
      var urls' := if step.Ok? then step.value.0 else urls;
      CreateMany(urls', users, reqs[1..], parses, codes[1..], baseUrl, now)
  }

  /** Run one after another, creations never leave two live links of one
      owner for the same long URL. */
  lemma {:induction false} CreateManyKeepsPairsUnique(urls: UrlTable, users: UserStore.UserTable,
                                                      reqs: seq<CreateUrlRequest>, parses: string -> bool,
                                                      codes: seq<string>, baseUrl: string, now: int)
    requires Valid(urls) && |codes| == |reqs|
    requires forall i :: 0 <= i < |codes| ==> IsGeneratedCode(codes[i])
    requires LivePairsUnique(urls)
    ensures LivePairsUnique(CreateMany(urls, users, reqs, parses, codes, baseUrl, now))
    decreases |reqs|
  {
    if |reqs| > 0 {
      var step := CreateUrl(urls, users, reqs[0], parses, codes[0], baseUrl, now);
      var urls' := if step.Ok? then step.value.0 else urls;
      CreateManyKeepsPairsUnique(urls', users, reqs[1..], parses, codes[1..], baseUrl, now);
    }
  }
}

=== FILE: text.dfy ===
/** String helpers: substring search (`String.prototype.includes`) and
    ASCII lower-casing, which is what a case-insensitive regular expression
    without the `u` flag amounts to for the all-ASCII patterns used here. */
module Text {

  /** ASCII lower-case of one character; every other character is kept. */
  function LowerChar(c: char): char {
    if 'A' <= c <= 'Z' then (c as int + 32) as char else c
  }

  /** ASCII lower-case of a string, character by character. */
  function Lower(s: string): (r: string)
    ensures |r| == |s|
    ensures forall i :: 0 <= i < |s| ==> r[i] == LowerChar(s[i])
  {
    if |s| == 0 then [] else [LowerChar(s[0])] + Lower(s[1..])
  }

  /** `pat` occurs in `s` starting at position `i`. */
  predicate OccursAt(s: string, pat: string, i: nat) {
    i + |pat| <= |s| && s[i..i + |pat|] == pat
  }

  /** `s.includes(pat)`: `pat` occurs somewhere in `s`. */
  predicate Contains(s: string, pat: string)
    decreases |s|
  {
    (|pat| <= |s| && s[..|pat|] == pat) || (|s| > 0 && Contains(s[1..], pat))
  }

  /** Case-insensitive search of a lower-case pattern (`/pat/i.test(s)`). */
  predicate ContainsIgnoreCase(s: string, pat: string) {
    Contains(Lower(s), pat)
  }

  /** An occurrence at position `i` is found by the recursive search. */
  lemma {:induction false} OccursAtContains(s: string, pat: string, i: nat)
    requires OccursAt(s, pat, i)
    ensures Contains(s, pat)
    decreases i
  {
    if i > 0 {
      assert s[1..][i - 1..i - 1 + |pat|] == s[i..i + |pat|];
      OccursAtContains(s[1..], pat, i - 1);
    }
  }

  /** The recursive search only succeeds at an actual occurrence. */
  lemma {:induction false} ContainsAt(s: string, pat: string) returns (i: nat)
    requires Contains(s, pat)
    ensures OccursAt(s, pat, i)
    decreases |s|
  {
    if |pat| <= |s| && s[..|pat|] == pat {
      i := 0;
    } else {
      var j := ContainsAt(s[1..], pat);
      assert s[1..][j..j + |pat|] == s[j + 1..j + 1 + |pat|];
      i := j + 1;
    }
  }

  /** The recursive search agrees with "occurs at some position". */
  lemma ContainsIff(s: string, pat: string)
    ensures Contains(s, pat) <==> exists i: nat :: OccursAt(s, pat, i)
  {
    if Contains(s, pat) {
      var i := ContainsAt(s, pat);
    }
    forall i: nat | OccursAt(s, pat, i)
      ensures Contains(s, pat)
    {
      OccursAtContains(s, pat, i);
    }
  }

  /** Whatever surrounds it, a string contains each of its own pieces. */
  lemma ContainsInfix(a: string, pat: string, b: string)
    ensures Contains(a + pat + b, pat)
  {
    var s := a + pat + b;
    assert s[|a|..|a| + |pat|] == pat;
    OccursAtContains(s, pat, |a|);
  }

  /** A non-empty pattern can only occur where its first character does. */
  lemma ContainsFirstChar(s: string, pat: string)
    requires |pat| > 0 && Contains(s, pat)
    ensures pat[0] in s
  {
    var i := ContainsAt(s, pat);
    assert s[i] == s[i..i + |pat|][0];
  }

  /** Lower-casing depends only on each character's lower-case form, so two
      strings that differ only in ASCII letter case lower-case equally. */
  lemma LowerCaseBlind(a: string, b: string)
    requires |a| == |b|
    requires forall i :: 0 <= i < |a| ==> LowerChar(a[i]) == LowerChar(b[i])
    ensures Lower(a) == Lower(b)
  {
  }
}

=== FILE: url_repo.dfy ===
/** The short-link table. Rows are never removed: deleting one only marks it
    deleted (soft delete), after which lookups no longer see it. The unique
    index on `shortUrl` covers every row, deleted ones included. */
module UrlRepo {
  import opened Results
  import opened Errors

  /** A stored short link (`IUrl`). */
  datatype UrlRecord = UrlRecord(
    id: nat,
    userId: nat,
    longUrl: string,
    shortUrl: string,
    customAlias: Option<string>,
    topic: Option<string>,
    createdAt: int,
    deleted: bool)

  /** The fields a new row is created from (`CreateUrlDto`). */
  datatype NewUrl = NewUrl(
    longUrl: string,
    shortUrl: string,
    customAlias: Option<string>,
    topic: Option<string>,
    userId: nat)

  type UrlTable = seq<UrlRecord>

  /** Ids are assigned 1, 2, 3, ... in insertion order and no two rows share
      a `shortUrl`. */
  predicate Valid(t: UrlTable) {
    && (forall i :: 0 <= i < |t| ==> t[i].id == i + 1)
    && (forall i, j :: 0 <= i < j < |t| ==> t[i].shortUrl != t[j].shortUrl)
  }

  /** Some row, live or deleted, already holds `shortUrl`. */
  predicate ShortUrlTaken(t: UrlTable, shortUrl: string) {
    exists i :: 0 <= i < |t| && t[i].shortUrl == shortUrl
  }

  /** `create(urlDto)`: the row gets exactly the given fields, the next id and
      the store's clock reading `now`; a taken `shortUrl` is refused. */
  function Create(t: UrlTable, dto: NewUrl, now: int): (r: Result<(UrlTable, UrlRecord), Failure>)
    requires Valid(t)
    ensures r.Err? <==> ShortUrlTaken(t, dto.shortUrl)
    ensures r.Err? ==> r.error == UniqueViolation("shortUrl")
    ensures r.Ok? ==> r.value.0 == t + [r.value.1]
    ensures r.Ok? ==> r.value.1 == UrlRecord(|t| + 1, dto.userId, dto.longUrl, dto.shortUrl,
                                             dto.customAlias, dto.topic, now, false)
    ensures r.Ok? ==> Valid(r.value.0)
  {
    if exists i :: 0 <= i < |t| && t[i].shortUrl == dto.shortUrl then Err(UniqueViolation("shortUrl"))
    else
      var row := UrlRecord(|t| + 1, dto.userId, dto.longUrl, dto.shortUrl, dto.customAlias, dto.topic, now, false);
      Ok((t + [row], row))
  }

  /** The where-clause of `getOne` (`GetOneUrlDto`): absent fields do not
      constrain. */
  datatype UrlFilter = UrlFilter(
    id: Option<nat>,
    shortUrl: Option<string>,
    customAlias: Option<string>,
    longUrl: Option<string>,
    userId: Option<nat>)

  /** A filter on the custom alias alone. */
  function AliasFilter(alias: string): UrlFilter {
    UrlFilter(None, None, Some(alias), None, None)
  }

  /** Every supplied filter field equals the row's field. */
  predicate Matches(row: UrlRecord, f: UrlFilter) {
    && (f.id.None? || row.id == f.id.value)
    && (f.shortUrl.None? || row.shortUrl == f.shortUrl.value)
    && (f.customAlias.None? || row.customAlias == f.customAlias)
    && (f.longUrl.None? || row.longUrl == f.longUrl.value)
    && (f.userId.None? || row.userId == f.userId.value)
  }

  /** `getOne(filter)`: a live row matching the filter (the first in
      insertion order), or nothing when no live row matches. */
  function GetOne(t: UrlTable, f: UrlFilter): (r: Option<UrlRecord>)
    ensures r.Some? ==> r.value in t && !r.value.deleted && Matches(r.value, f)
    ensures r.None? <==> forall i :: 0 <= i < |t| ==> t[i].deleted || !Matches(t[i], f)
  {
    if |t| == 0 then None
    else if !t[0].deleted && Matches(t[0], f) then Some(t[0])
    else
      var r := GetOne(t[1..], f);
      assert forall i :: 1 <= i < |t| ==> t[i] == t[1..][i - 1];
      r
  }

  /** `getAll()`: the live rows, in insertion order. */
  function GetAll(t: UrlTable): (r: seq<UrlRecord>)
    ensures forall row :: row in r <==> row in t && !row.deleted
    ensures |r| <= |t|
  {
    if |t| == 0 then []
    else
      var rest := GetAll(t[1..]);
      assert forall row :: row in t <==> row == t[0] || row in t[1..];
      if t[0].deleted then rest else [t[0]] + rest
  }

  /** The fields an update may supply (`Partial<IUrl>`); absent ones are left
      alone. */
  datatype UrlPatch = UrlPatch(
    longUrl: Option<string>,
    shortUrl: Option<string>,
    customAlias: Option<string>,
    topic: Option<string>,
    userId: Option<nat>)

  /** A row with the supplied fields replaced and every other field kept. */
  function Patch(row: UrlRecord, p: UrlPatch): (r: UrlRecord)
    ensures r.id == row.id && r.createdAt == row.createdAt && r.deleted == row.deleted
    ensures r.longUrl == (if p.longUrl.Some? then p.longUrl.value else row.longUrl)
    ensures r.shortUrl == (if p.shortUrl.Some? then p.shortUrl.value else row.shortUrl)
    ensures r.customAlias == (if p.customAlias.Some? then p.customAlias else row.customAlias)
    ensures r.topic == (if p.topic.Some? then p.topic else row.topic)
    ensures r.userId == (if p.userId.Some? then p.userId.value else row.userId)
  {
    row.(longUrl := p.longUrl.GetOr(row.longUrl),
         shortUrl := p.shortUrl.GetOr(row.shortUrl),
         customAlias := if p.customAlias.Some? then p.customAlias else row.customAlias,
         topic := if p.topic.Some? then p.topic else row.topic,
         userId := p.userId.GetOr(row.userId))
  }

  /** There is a live row with this id. */
  predicate LiveId(t: UrlTable, id: nat)
    requires Valid(t)
  {
    1 <= id <= |t| && !t[id - 1].deleted
  }

  /** `updateOne(id, patch)`: the live row with that id gets the supplied
      fields, nothing else changes, and the number of affected rows (0 or 1)
      is returned; a `shortUrl` held by another row is refused. */
  function UpdateOne(t: UrlTable, id: nat, p: UrlPatch): (r: Result<(UrlTable, nat), Failure>)
    requires Valid(t)
    ensures r.Err? ==> r.error == UniqueViolation("shortUrl") && LiveId(t, id) && p.shortUrl.Some?
    ensures r.Ok? ==> |r.value.0| == |t| && Valid(r.value.0)
    ensures r.Ok? ==> (r.value.1 == 1 <==> LiveId(t, id)) && r.value.1 <= 1
    ensures r.Ok? ==> forall i :: 0 <= i < |t| && i != id - 1 ==> r.value.0[i] == t[i]
    ensures r.Ok? && LiveId(t, id) ==> r.value.0[id - 1] == Patch(t[id - 1], p)
    ensures !LiveId(t, id) ==> r == Ok((t, 0))
  {
    if !LiveId(t, id) then Ok((t, 0))
    else
      var row := Patch(t[id - 1], p);
      if exists j :: 0 <= j < |t| && j != id - 1 && t[j].shortUrl == row.shortUrl then
        Err(UniqueViolation("shortUrl"))
      else
        Ok((t[id - 1 := row], 1))
  }

  /** `deleteOne(id)`: the live row with that id is marked deleted and stays
      stored; the number of affected rows (0 or 1) is returned. */
  function DeleteOne(t: UrlTable, id: nat): (r: (UrlTable, nat))
    requires Valid(t)
    ensures |r.0| == |t| && Valid(r.0)
    ensures (r.1 == 1 <==> LiveId(t, id)) && r.1 <= 1
    ensures forall i :: 0 <= i < |t| && i != id - 1 ==> r.0[i] == t[i]
    ensures LiveId(t, id) ==> r.0[id - 1] == t[id - 1].(deleted := true)
    ensures !LiveId(t, id) ==> r.0 == t
  {
    if !LiveId(t, id) then (t, 0)
    else (t[id - 1 := t[id - 1].(deleted := true)], 1)
  }

  /** After a delete the row is still stored but no lookup returns it. */
  lemma DeletedRowInvisible(t: UrlTable, id: nat, f: UrlFilter)
    requires Valid(t) && 1 <= id <= |t|
    ensures DeleteOne(t, id).0[id - 1].id == id
    ensures var r := GetOne(DeleteOne(t, id).0, f); r.None? || r.value.id != id
    ensures forall row :: row in GetAll(DeleteOne(t, id).0) ==> row.id != id
  {
    var t' := DeleteOne(t, id).0;
    assert Valid(t');
    forall row | row in t' && !row.deleted
      ensures row.id != id
    {
      var i :| 0 <= i < |t'| && t'[i] == row;
    }
  }
}

=== FILE: url_routes.dfy ===
/** The link router: `POST /shorten` behind the rate limiter and
    `GET /shorten/:alias`, the redirect that records a visit event. The
    request's headers, the gate's user, the geographic lookup and the
    store's failures are parameters. */
module UrlRoutes {
  import opened Results
  import opened Errors
  import opened Text
  import opened UrlRepo
  import opened UrlService
  import opened DeviceDetection
  import opened RateLimit
  import AnalyticsRepo
  import AnalyticsService
  import UserStore
  import Authorize

  // ------------------------------------------------------------ shorten

  /** The JSON body of `POST /shorten`; a missing property is None. */
  datatype ShortenBody = ShortenBody(longUrl: Option<string>, customAlias: Option<string>, topic: Option<string>)

  /** The data the handler builds: `customAlias || null`, the lower-cased
      topic `|| null`, and the caller's `sub` from `res.locals.user`. The
      topic is lower-cased before the user is read, so a missing topic is
      the `TypeError` reported first; both escape `createUrl`'s `catch`. */
  function BuildRequest(body: ShortenBody, user: Option<Authorize.Payload>): (r: Result<CreateUrlRequest, Failure>)
    ensures body.topic.None? ==> r.Err? && r.error.TypeError?
    ensures body.topic.Some? && user.None? ==> r.Err? && r.error.TypeError?
    ensures body.topic.Some? && user.Some? ==> r.Ok?
    ensures r.Ok? ==> r.value.longUrl == body.longUrl && r.value.sub == user.value.sub
    ensures r.Ok? ==> (r.value.customAlias.Some? <==> Truthy(body.customAlias))
    ensures r.Ok? && Truthy(body.customAlias) ==> r.value.customAlias == body.customAlias
    ensures r.Ok? ==> (r.value.topic.Some? <==> body.topic.value != "")
    ensures r.Ok? && r.value.topic.Some? ==> r.value.topic.value == Lower(body.topic.value)
  {
    match body.topic
    case None => Err(TypeError("Cannot read properties of undefined (reading 'toLowerCase')"))
    case Some(topic) =>
      match user
      case None => Err(TypeError("Cannot read properties of undefined (reading 'sub')"))
      case Some(payload) =>
        var lowered := Lower(topic);
        Ok(CreateUrlRequest(body.longUrl, payload.sub,
                            if Truthy(body.customAlias) then body.customAlias else None,
                            if lowered != "" then Some(lowered) else None))
  }

  /** Topics that differ only in ASCII case are filed under the same tag. */
  lemma TopicCaseFolded(body: ShortenBody, other: string, user: Authorize.Payload)
    requires body.topic.Some? && |other| == |body.topic.value|
    requires forall i :: 0 <= i < |other| ==> LowerChar(other[i]) == LowerChar(body.topic.value[i])
    ensures BuildRequest(body, Some(user)) == BuildRequest(body.(topic := Some(other)), Some(user))
  {
    assert Lower(other) == Lower(body.topic.value);
  }

  /** What a shorten request leaves behind. */
  datatype ShortenOutcome = ShortenOutcome(limiter: Limiter, urls: UrlTable, reply: Reply<Shortened>)

  /** `POST /shorten`: the limiter counts the request first; a refused
      request gets 429 with the limiter's message. Otherwise the body is
      normalised and `createUrl` runs; its errors go to the error handler. */
  function Shorten(limiter: Limiter, urls: UrlTable, users: UserStore.UserTable, client: string, now: int,
                   body: ShortenBody, user: Option<Authorize.Payload>,
                   parses: string -> bool, generated: string, baseUrl: string)
    : (r: ShortenOutcome)
    requires Valid(urls) && IsGeneratedCode(generated)
    ensures r.limiter == Hit(limiter, client, now).0
    ensures !Hit(limiter, client, now).1 ==>
      r.reply == Throttled(TOO_MANY_STATUS, TOO_MANY_MESSAGE) && r.urls == urls
    ensures Hit(limiter, client, now).1 && BuildRequest(body, user).Err? ==>
      r.reply == Forward(BuildRequest(body, user).error) && r.reply.status == 500 && r.urls == urls
    ensures Hit(limiter, client, now).1 && BuildRequest(body, user).Ok? ==>
      match CreateUrl(urls, users, BuildRequest(body, user).value, parses, generated, baseUrl, now)
      case Ok((urls', shortened)) => r.urls == urls' && r.reply == Send(shortened)
      case Err(f) => r.urls == urls && r.reply == Forward(f)
    ensures Valid(r.urls)
    ensures LivePairsUnique(urls) ==> LivePairsUnique(r.urls)
  {
    var hit := Hit(limiter, client, now);
    if !hit.1 then ShortenOutcome(hit.0, urls, Throttled(TOO_MANY_STATUS, TOO_MANY_MESSAGE))
    else
      match BuildRequest(body, user)
      case Err(f) => ShortenOutcome(hit.0, urls, Forward(f))
      case Ok(req) =>
        match CreateUrl(urls, users, req, parses, generated, baseUrl, now)
        case Err(f) => ShortenOutcome(hit.0, urls, Forward(f))
        case Ok((urls', shortened)) => ShortenOutcome(hit.0, urls', Send(shortened))
  }

  /** A body without `topic` answers 500 even when the long URL is missing
      too: the handler throws before `createUrl` can report MISSING_LONG_URL. */
  lemma MissingTopicMasksMissingUrl(limiter: Limiter, urls: UrlTable, users: UserStore.UserTable,
                                    client: string, now: int, user: Option<Authorize.Payload>,
                                    parses: string -> bool, generated: string, baseUrl: string)
    requires Valid(urls) && IsGeneratedCode(generated)
    requires OpensWindow(limiter, client, now)
    ensures var r := Shorten(limiter, urls, users, client, now, ShortenBody(None, None, None), user,
                             parses, generated, baseUrl);
      r.reply.Fail? && r.reply.status == 500 && r.urls == urls
  {
  }

  /** Once a client's window holds three requests, every further request in
      that window is refused and creates nothing, whatever its body. */
  lemma ShortenThrottledAfterThree(limiter: Limiter, urls: UrlTable, users: UserStore.UserTable,
                                   client: string, now: int, body: ShortenBody,
                                   user: Option<Authorize.Payload>,
                                   parses: string -> bool, generated: string, baseUrl: string)
    requires Valid(urls) && IsGeneratedCode(generated)
    requires client in limiter && limiter[client].hits >= LIMIT
    requires now < limiter[client].start + WINDOW_MS
    ensures var r := Shorten(limiter, urls, users, client, now, body, user, parses, generated, baseUrl);
      r.reply == Throttled(429, "Too many requests, please try again later") && r.urls == urls
  {
  }

  // ----------------------------------------------------------- redirect

  /** The request headers the redirect reads. */
  datatype Visit = Visit(userAgent: Option<string>, forwardedFor: ForwardedFor, peerIp: Option<string>)

  /** The user-agent string the event is built from: the header, or
      "Unknown" when it is missing or empty. */
  function AgentOf(visit: Visit): (ua: string)
    ensures ua != ""
    ensures Truthy(visit.userAgent) ==> ua == visit.userAgent.value
    ensures !Truthy(visit.userAgent) ==> ua == "Unknown"
  {
    if Truthy(visit.userAgent) then visit.userAgent.value else "Unknown"
  }

  /** The event derived from a visit of link `urlId`. The OS and device are
      classified from the same agent string that is stored; `geo` is the
      geographic lookup of the address. */
  function VisitEvent(urlId: nat, visit: Visit, geo: string -> string): (e: AnalyticsRepo.NewEvent)
    ensures e.urlId == urlId && e.userAgent == AgentOf(visit)
    ensures e.deviceType == DetectDeviceType(e.userAgent) && e.osName == DetectOsName(e.userAgent)
    ensures e.ipAddress == GetIpAddress(visit.forwardedFor, visit.peerIp) && e.ipAddress != "::1"
    ensures e.geoLocation == geo(e.ipAddress)
  {
    var ua := AgentOf(visit);
    var ip := GetIpAddress(visit.forwardedFor, visit.peerIp);
    AnalyticsRepo.NewEvent(urlId, ua, ip, DetectOsName(ua), DetectDeviceType(ua), geo(ip))
  }

  /** The message of the `TypeError` raised by calling a method the service
      does not export. */
  const MISSING_METHOD: string := "analyticsService.CreateAnalytics is not a function"

  /** `GET /shorten/:alias` as written: after the lookup the handler calls
      `analyticsService.CreateAnalytics`, which does not exist (the service
      exports `createAnalytics`), so the call throws before anything is
      recorded and the redirect is never reached. */
  function RedirectAsWritten(urls: UrlTable, events: AnalyticsRepo.EventTable, alias: string)
    : (r: (AnalyticsRepo.EventTable, Reply<()>))
    ensures r.0 == events
    ensures GetOne(urls, AliasFilter(alias)).None? ==> r.1 == Forward(URL_NOT_FOUND)
    ensures GetOne(urls, AliasFilter(alias)).Some? ==> r.1 == Forward(TypeError(MISSING_METHOD))
  {
    match GetOne(urls, AliasFilter(alias))
    case None => (events, Forward(URL_NOT_FOUND))
    case Some(_) => (events, Forward(TypeError(MISSING_METHOD)))
  }

  /** As written, no visit is ever recorded and no request is redirected:
      a known alias answers 500 and an unknown one 404. */
  lemma RedirectAsWrittenNeverRedirects(urls: UrlTable, events: AnalyticsRepo.EventTable, alias: string)
    ensures RedirectAsWritten(urls, events, alias).0 == events
    ensures !RedirectAsWritten(urls, events, alias).1.RedirectTo?
    ensures (exists i :: 0 <= i < |urls| && !urls[i].deleted && urls[i].customAlias == Some(alias))
            ==> RedirectAsWritten(urls, events, alias).1.status == 500
  {
    if exists i :: 0 <= i < |urls| && !urls[i].deleted && urls[i].customAlias == Some(alias) {
      var i :| 0 <= i < |urls| && !urls[i].deleted && urls[i].customAlias == Some(alias);
      assert Matches(urls[i], AliasFilter(alias));
    }
  }

  /** `GET /shorten/:alias` calling the service's `createAnalytics`: an
      unknown alias answers 404 and records nothing; otherwise exactly one
      event for the link is recorded and awaited, and only then does the
      client get redirected to the long URL. A failed recording (`fault`)
      is forwarded and nothing is redirected. */
  function Redirect(urls: UrlTable, events: AnalyticsRepo.EventTable, alias: string, visit: Visit,
                    geo: string -> string, now: int, fault: Option<Failure>)
    : (r: (AnalyticsRepo.EventTable, Reply<()>))
    requires AnalyticsRepo.Valid(events)
    ensures GetOne(urls, AliasFilter(alias)).None? ==> r == (events, Forward(URL_NOT_FOUND))
    ensures GetOne(urls, AliasFilter(alias)).Some? && fault.Some? ==> r == (events, Forward(fault.value))
    ensures GetOne(urls, AliasFilter(alias)).Some? && fault.None? ==>
      var link := GetOne(urls, AliasFilter(alias)).value;
      && r.1 == RedirectTo(link.longUrl)
      && |r.0| == |events| + 1 && r.0[..|events|] == events
      && r.0[|events|] == AnalyticsRepo.Create(events, VisitEvent(link.id, visit, geo), now).1
    ensures r.1.RedirectTo? <==> GetOne(urls, AliasFilter(alias)).Some? && fault.None?
    ensures AnalyticsRepo.Valid(r.0)
  {
    match GetOne(urls, AliasFilter(alias))
    case None => (events, Forward(URL_NOT_FOUND))
    case Some(link) =>
      match AnalyticsService.CreateAnalytics(events, VisitEvent(link.id, visit, geo), now, fault)
      case Err(f) => (events, Forward(f))
      case Ok((events', _)) =>
        assert events'[..|events|] == events;
        (events', RedirectTo(link.longUrl))
  }

  /** The recorded event belongs to a live link carrying the alias, and its
      agent fields agree with the headers. */
  lemma RedirectRecordsTheVisit(urls: UrlTable, events: AnalyticsRepo.EventTable, alias: string,
                                visit: Visit, geo: string -> string, now: int)
    requires AnalyticsRepo.Valid(events)
    requires Redirect(urls, events, alias, visit, geo, now, None).1.RedirectTo?
    ensures var e := Redirect(urls, events, alias, visit, geo, now, None).0[|events|];
      && (exists k :: 0 <= k < |urls| && !urls[k].deleted && urls[k].customAlias == Some(alias)
                      && urls[k].id == e.urlId)
      && e.userAgent == AgentOf(visit) && e.osName == DetectOsName(AgentOf(visit))
      && !e.deleted && e.createdAt == now
  {
    var link := GetOne(urls, AliasFilter(alias)).value;
    var k :| 0 <= k < |urls| && urls[k] == link;
  }

  /** A link created without a custom alias stores none, so no alias reaches
      it through the redirect: no redirect records a visit for it. */
  lemma UnaliasedLinkUnreachable(urls: UrlTable, events: AnalyticsRepo.EventTable, k: nat, alias: string,
                                 visit: Visit, geo: string -> string, now: int, fault: Option<Failure>)
    requires Valid(urls) && AnalyticsRepo.Valid(events)
    requires k < |urls| && urls[k].customAlias.None?
    ensures GetOne(urls, AliasFilter(alias)) != Some(urls[k])
    ensures var r := Redirect(urls, events, alias, visit, geo, now, fault).0;
      forall i :: |events| <= i < |r| ==> r[i].urlId != urls[k].id
  {
    var r := Redirect(urls, events, alias, visit, geo, now, fault).0;
    if |r| > |events| {
      var link := GetOne(urls, AliasFilter(alias)).value;
      var j :| 0 <= j < |urls| && urls[j] == link;
      assert j != k;
    }
  }

  /** An empty alias in the body is stored as no alias. */
  lemma EmptyAliasStoredAsNone(body: ShortenBody, user: Authorize.Payload)
    requires body.topic.Some? && body.customAlias == Some("")
    ensures BuildRequest(body, Some(user)).value.customAlias.None?
  {
  }
}

=== FILE: url_service.dfy ===
/** Creating a short link: the validation pipeline of `createUrl` and the
    lookup `getOneUrl`. URL parsing and the random code generator are
    parameters; the base URL prefix is an opaque string. */
module UrlService {
  import opened Results
  import opened Errors
  import opened UrlRepo
  import UserStore

  /** What the handler passes in: the raw long URL (possibly absent), the
      caller's subject id, and the optional alias and topic. */
  datatype CreateUrlRequest = CreateUrlRequest(
    longUrl: Option<string>,
    sub: string,
    customAlias: Option<string>,
    topic: Option<string>)

  /** `{ shortUrl, createdAt }` returned on success. */
  datatype Shortened = Shortened(shortUrl: string, createdAt: int)

  /** The alphabet of the code generator: letters, digits, `_` and `-`. */
  predicate UrlSafeChar(c: char) {
    ('A' <= c <= 'Z') || ('a' <= c <= 'z') || ('0' <= c <= '9') || c == '_' || c == '-'
  }

  /** What the generator returns when asked for 8 characters. */
  predicate IsGeneratedCode(code: string) {
    |code| == 8 && forall i :: 0 <= i < |code| ==> UrlSafeChar(code[i])
  }

  /** JavaScript truthiness of an optional string. */
  predicate Truthy(s: Option<string>) {
    s.Some? && s.value != ""
  }

  /** `customAlias || nanoid(8)`. */
  function ShortCode(customAlias: Option<string>, generated: string): (code: string)
    requires IsGeneratedCode(generated)
    ensures Truthy(customAlias) ==> code == customAlias.value
    ensures !Truthy(customAlias) ==> code == generated && |code| == 8
    ensures code != ""
  {
    if Truthy(customAlias) then customAlias.value else generated
  }

  /** The lookup used for the duplicate check: same long URL, same owner. */
  function DuplicateFilter(longUrl: string, userId: nat): UrlFilter {
    UrlFilter(None, None, None, Some(longUrl), Some(userId))
  }

  /** The body of the `try` block, before the `catch` rewrites errors.
      `parses` tells whether `new URL(...)` accepts a string (it throws a
      `TypeError` otherwise). */
  function CreateUrlPipeline(urls: UrlTable, users: UserStore.UserTable, req: CreateUrlRequest,
                             parses: string -> bool, generated: string, baseUrl: string, now: int)
    : (r: Result<(UrlTable, Shortened), Failure>)
    requires Valid(urls) && IsGeneratedCode(generated)
  {
    if !Truthy(req.longUrl) then Err(MISSING_LONG_URL)
    else if !parses(req.longUrl.value) then Err(TypeError("Invalid URL"))
    else
      match UserStore.FindBySub(users, req.sub)
      case None => Err(USER_NOT_FOUND)
      case Some(user) =>
        if GetOne(urls, DuplicateFilter(req.longUrl.value, user.id)).Some? then Err(ALREADY_EXIST)
        else
          var shortUrl := baseUrl + ShortCode(req.customAlias, generated);
          match Create(urls, NewUrl(req.longUrl.value, shortUrl, req.customAlias, req.topic, user.id), now)
          case Err(f) => Err(f)
          case Ok((urls', row)) => Ok((urls', Shortened(shortUrl, row.createdAt)))
  }

  /** The `catch` block: a `TypeError` becomes INVALID_URL_FORMAT, anything
      else is re-thrown unchanged. */
  function CatchCreate(f: Failure): (g: Failure)
    ensures !g.TypeError?
    ensures f.TypeError? ==> g == INVALID_URL_FORMAT
    ensures !f.TypeError? ==> g == f
  {
    if f.TypeError? then INVALID_URL_FORMAT else f
  }

  /** At most one live link per (owner, long URL). */
  predicate LivePairsUnique(urls: UrlTable) {
    forall i, j :: 0 <= i < j < |urls| && !urls[i].deleted && !urls[j].deleted ==>
      urls[i].userId != urls[j].userId || urls[i].longUrl != urls[j].longUrl
  }

  /** `createUrl(urlDto)`. The checks run in a fixed order: missing long URL,
      unparsable long URL, unknown user, existing live link for the same
      owner and long URL; only then is a row created, whose `shortUrl` is the
      base URL followed by the custom alias or else the generated code. A
      failed call leaves the table as it was (there is no table to return). */
  function CreateUrl(urls: UrlTable, users: UserStore.UserTable, req: CreateUrlRequest,
                     parses: string -> bool, generated: string, baseUrl: string, now: int)
    : (r: Result<(UrlTable, Shortened), Failure>)
    requires Valid(urls) && IsGeneratedCode(generated)
    ensures !Truthy(req.longUrl) ==> r == Err(MISSING_LONG_URL)
    ensures Truthy(req.longUrl) && !parses(req.longUrl.value) ==> r == Err(INVALID_URL_FORMAT)
    ensures Truthy(req.longUrl) && parses(req.longUrl.value) && UserStore.FindBySub(users, req.sub).None?
            ==> r == Err(USER_NOT_FOUND)
    ensures Truthy(req.longUrl) && parses(req.longUrl.value) && UserStore.FindBySub(users, req.sub).Some?
            && (exists i :: 0 <= i < |urls| && !urls[i].deleted && urls[i].longUrl == req.longUrl.value
                            && urls[i].userId == UserStore.FindBySub(users, req.sub).value.id)
            ==> r == Err(ALREADY_EXIST)
    ensures Truthy(req.longUrl) && parses(req.longUrl.value) && UserStore.FindBySub(users, req.sub).Some?
            && (forall i :: 0 <= i < |urls| && !urls[i].deleted ==>
                  urls[i].longUrl != req.longUrl.value || urls[i].userId != UserStore.FindBySub(users, req.sub).value.id)
            && ShortUrlTaken(urls, baseUrl + ShortCode(req.customAlias, generated))
            ==> r == Err(UniqueViolation("shortUrl"))
    ensures r.Err? ==> !r.error.TypeError?
    ensures r.Ok? ==>
      && Truthy(req.longUrl) && parses(req.longUrl.value)
      && UserStore.FindBySub(users, req.sub).Some?
      && var user := UserStore.FindBySub(users, req.sub).value;
      && var shortUrl := baseUrl + ShortCode(req.customAlias, generated);
      && r.value.1 == Shortened(shortUrl, now)
      && r.value.0 == urls + [UrlRecord(|urls| + 1, user.id, req.longUrl.value, shortUrl,
                                        req.customAlias, req.topic, now, false)]
      && Valid(r.value.0)
    ensures LivePairsUnique(urls) && r.Ok? ==> LivePairsUnique(r.value.0)
  {
    var r := CreateUrlPipeline(urls, users, req, parses, generated, baseUrl, now);
    match r
    case Ok(v) => Ok(v)
    case Err(f) => Err(CatchCreate(f))
  }

  /** `getOneUrl(filter)`, a pass-through to the table lookup. */
  function GetOneUrl(urls: UrlTable, f: UrlFilter): (r: Option<UrlRecord>)
    ensures r.Some? ==> r.value in urls && !r.value.deleted && Matches(r.value, f)
    ensures r.None? <==> forall i :: 0 <= i < |urls| ==> urls[i].deleted || !Matches(urls[i], f)
  {
    GetOne(urls, f)
  }

  /** Every step of creation succeeds when the long URL is present and
      parses, the user exists, it has no live link to that URL yet, and the
      resulting short URL is new to the table. */
  lemma CreateUrlSucceeds(urls: UrlTable, users: UserStore.UserTable, req: CreateUrlRequest,
                          parses: string -> bool, generated: string, baseUrl: string, now: int)
    requires Valid(urls) && IsGeneratedCode(generated)
    requires Truthy(req.longUrl) && parses(req.longUrl.value)
    requires UserStore.FindBySub(users, req.sub).Some?
    requires forall i :: 0 <= i < |urls| && !urls[i].deleted ==>
      urls[i].longUrl != req.longUrl.value || urls[i].userId != UserStore.FindBySub(users, req.sub).value.id
    requires !ShortUrlTaken(urls, baseUrl + ShortCode(req.customAlias, generated))
    ensures CreateUrl(urls, users, req, parses, generated, baseUrl, now).Ok?
  {
  }

  /** A second creation for the same owner and long URL is refused with
      ALREADY_EXIST, whatever alias or code it brings. */
  lemma SecondCreateRefused(urls: UrlTable, users: UserStore.UserTable, req: CreateUrlRequest,
                            req2: CreateUrlRequest, parses: string -> bool, generated: string,
                            generated2: string, baseUrl: string, now: int, now2: int)
    requires Valid(urls) && IsGeneratedCode(generated) && IsGeneratedCode(generated2)
    requires req2.longUrl == req.longUrl && req2.sub == req.sub
    requires CreateUrl(urls, users, req, parses, generated, baseUrl, now).Ok?
    ensures var urls' := CreateUrl(urls, users, req, parses, generated, baseUrl, now).value.0;
            CreateUrl(urls', users, req2, parses, generated2, baseUrl, now2) == Err(ALREADY_EXIST)
  {
    var urls' := CreateUrl(urls, users, req, parses, generated, baseUrl, now).value.0;
    assert !urls'[|urls|].deleted;
  }
}

=== FILE: user_store.dfy ===
/** The users table as far as the core needs it: users are found by email or
    by subject id and created with both columns filled. `email` and `sub`
    are unique, and `sub` may not be null. */
module UserStore {
  import opened Results
  import opened Errors

  /** A stored user; `sub` is `None` only in a creation request that omits it. */
  datatype User = User(id: nat, email: string, sub: Option<string>)

  type UserTable = seq<User>

  /** Ids are assigned 1, 2, 3, ... in insertion order, every stored user has
      a subject id, and emails and subject ids are unique. */
  predicate Valid(t: UserTable) {
    && (forall i :: 0 <= i < |t| ==> t[i].id == i + 1 && t[i].sub.Some?)
    && (forall i, j :: 0 <= i < j < |t| ==> t[i].email != t[j].email && t[i].sub != t[j].sub)
  }

  /** `getOneUser({email})`: the first user with that email. */
  function FindByEmail(t: UserTable, email: string): (r: Option<User>)
    ensures r.Some? ==> r.value in t && r.value.email == email
    ensures r.None? <==> forall i :: 0 <= i < |t| ==> t[i].email != email
  {
    if |t| == 0 then None
    else if t[0].email == email then Some(t[0])
    else
      var r := FindByEmail(t[1..], email);
      assert forall i :: 1 <= i < |t| ==> t[i] == t[1..][i - 1];
      r
  }

  /** `getOneUser({sub})`: the first user with that subject id. */
  function FindBySub(t: UserTable, sub: string): (r: Option<User>)
    ensures r.Some? ==> r.value in t && r.value.sub == Some(sub)
    ensures r.None? <==> forall i :: 0 <= i < |t| ==> t[i].sub != Some(sub)
  {
    if |t| == 0 then None
    else if t[0].sub == Some(sub) then Some(t[0])
    else
      var r := FindBySub(t[1..], sub);
      assert forall i :: 1 <= i < |t| ==> t[i] == t[1..][i - 1];
      r
  }

  /** `createUser({email, sub})`: the not-null check on `sub` comes first,
      then the unique indexes; on success one row is appended. */
  function CreateUser(t: UserTable, email: string, sub: Option<string>): (r: Result<(UserTable, User), Failure>)
    requires Valid(t)
    ensures sub.None? ==> r == Err(NotNullViolation("sub"))
    ensures r.Ok? <==>
      sub.Some? && (forall i :: 0 <= i < |t| ==> t[i].email != email && t[i].sub != sub)
    ensures r.Ok? ==> r.value.1 == User(|t| + 1, email, sub) && r.value.0 == t + [r.value.1]
    ensures r.Ok? ==> Valid(r.value.0)
    ensures r.Err? ==> r.error.NotNullViolation? || r.error.UniqueViolation?
  {
    if sub.None? then Err(NotNullViolation("sub"))
    else if FindByEmail(t, email).Some? then Err(UniqueViolation("email"))
    else if FindBySub(t, sub.value).Some? then Err(UniqueViolation("sub"))
    else
      var u := User(|t| + 1, email, sub);
      Ok((t + [u], u))
  }
}
